=== FILE: README.md ===
# Bomb-Bomb-Pudding turn engine in Dafny

A model of the turn engine of Bomb-Bomb-Pudding, a text-command Bomberman. The game reads a map
layout into a grid with a hidden goal, a player, enemies and empty bomb and item lists. Each typed
command then resolves one turn:

1. The player moves, places a bomb or waits.
2. Every bomb's timer goes down by one.
3. The bombs whose timer reached zero blow up.
4. The enemies step.
5. Explosion and enemy collisions, item pickups and the win check are resolved.
6. The turn counter goes up.

A session layer around it handles `start` and `restart`.

Modules, in dependency order:

- `Types` (types.dfy): the game's records, cell tags, the bomb timer and the initial layout. Each record is a datatype, because a turn works on a deep copy of the state. It also holds the message events and the `Oracle` that replaces the random choices.
- `Seqs` (seqs.dfy): the order-preserving `filter` the engine applies to bombs, enemies and items.
- `Grid` (grid.dfy): reading a cell, with "off the grid" giving no cell, and writing one. It also holds the four directions and the relation "only breakable blocks were destroyed".
- `Command` (command.dfy): lower-casing, `trim`, `split(' ')` and the classification of a command into an action.
- `Blast` (blast.dfy): the detonation pass, a loop over the exploding bombs and the four directions. It is proved equal to the recursive specification `DetonateAll` and characterised by lemmas.
- `Engine` (engine.dfy): the phases of a turn as functions and `Turn`, their composition. The imperative `ProcessTurn` and its per-phase methods are proved equal to them.
- `TurnFacts` (turn_facts.dfy): what a turn does, proved about `Turn`. This covers the action, fuses, explosion tiles, the map, enemies, pickups and the status, plus two invariants every turn keeps.
- `Setup` (setup.dfy): reading a layout. The row-by-row method is proved to meet a declarative characterisation, and that characterisation is proved to have exactly one solution. The initial layout's reading is then computed.
- `Session` (session.dfy): the command dispatcher around the engine and the state a session starts in.

The random choices of the game are parameters. `Oracle.drop(k)` is the item roll for the `k`-th
block destroyed in the turn: none, fire-up or bomb-up. `Oracle.step(i)` chooses the step of the
`i`-th enemy, taken modulo the number of open steps. Every property below holds for every oracle.

Two behaviours of the code are easy to get wrong:

- A bomb goes off two turns after the turn that placed it, on the second `wait` that follows. The timer starts at 3, and the placing turn already takes one tick off it (`TurnFacts.BombFuse`).
- A win overrides a loss in the same turn. The win check runs last and sets `Win` even when an explosion or an enemy set `Lose` earlier in that turn (`TurnFacts.TurnStatus`).

## Model

| member | source | states |
|---|---|---|
| Engine.ProcessTurn | App.tsx:78-222 | The turn as run on a copy of the state gives exactly the state and messages of `Turn`. Outside of play nothing happens. Otherwise the action, tick, detonation, enemy, collision and turn-count phases run in that order. |
| Engine.ApplyAction | App.tsx:85-114 | The action phase as run equals `PlayerAction`: a move, a bomb placement, wait, or an unknown-command message. |
| Engine.TickTimers | App.tsx:117 | Every bomb keeps its place and tile, and its timer is exactly one lower. |
| Engine.DetonateBombs | App.tsx:120-155 | The detonation phase as run equals `DetonationPhase`. The bombs at zero go off in list order. The explosion list is replaced by the marked tiles, and only bombs with a positive timer remain. |
| Engine.MoveEnemies | App.tsx:158-170 | Each enemy, in list order, takes the step the oracle picks among its open neighbours, or stays. |
| Engine.MoveEnemy | App.tsx:159-169 | The loop collects exactly the directions whose neighbouring tile is empty, in the order down, up, right, left, which is `OpenMoves`. The enemy then takes the oracle's pick among them, or stays if there is none, which is `StepEnemy`. |
| Engine.ExplosionSweep | App.tsx:174-186 | Sweeping the explosion tiles in order gives the enemies, status and messages of `SweepExplosions`. |
| Engine.ExplodeTile | App.tsx:175-185 | One explosion tile equals `HitTile`: on the player's tile it sets Lose with a message, and it removes the enemies on it. |
| Engine.RemoveEnemiesAt | App.tsx:179-185 | The enemies kept are exactly those off the tile, in order, and there is one defeat message per enemy removed. |
| Engine.EnemyContact | App.tsx:189-194 | Lose is set exactly when some enemy shares the player's tile, with one message per such enemy. |
| Engine.PickUpItems | App.tsx:197-209 | The items off the player's tile are kept in order. Each item picked up raises its own stat by one and gives its message. |
| Engine.Resolve | App.tsx:172-215 | Collisions, pickups and the win check as run equal `CollisionPhase`. |
| Blast.Detonations | App.tsx:123-152 | The nested loop over exploding bombs and the four directions equals `DetonateAll`: each bomb marks its tile, then blasts in each direction, each seeing the grid the earlier blasts left. |
| Blast.BlastWalk | App.tsx:127-150 | One direction's walk equals `Ray`. It stops before an unbreakable block and after the first breakable block, which it destroys. That block becomes empty, or the revealed goal on the goal tile, and an item roll is drawn. |
| Blast.RayTiles | App.tsx:127-150 | The tiles one walk marks are consecutive steps in its direction. None is beyond fire power or an unbreakable block, and a breakable block can only be the last. |
| Blast.RayStops | App.tsx:130-147 | A walk that ends before fire power ends at a block: its last tile was breakable, or the next tile is unbreakable. |
| Blast.RayEffect | App.tsx:135-148 | A walk changes the grid, goal flag, items and messages only by destroying the breakable block it ended on, and otherwise leaves them alone. |
| Blast.DetonateAllAftermath | App.tsx:120-155 | A whole detonation pass only appends explosion tiles and items and only destroys breakable blocks. Every cell it changes lies on a tile it marked. It raises the goal flag only by uncovering the goal tile, and drops items only on destroyed blocks. |
| Blast.DetonateAllTiles | App.tsx:123-152 | A pass marks every exploding bomb's tile. Every other tile it marks is within fire-power reach of an exploding bomb along an axis and was not an unbreakable block. |
| Blast.DetonateAllOrigins | App.tsx:123-124 | Every bomb that goes off has its own tile among the marked tiles. |
| Blast.DetonateAllBounded | App.tsx:123-152 | Every marked tile is an exploding bomb's own tile, or lies within fire-power reach of one on its axes and was not an unbreakable block. |
| Blast.RaysReach | App.tsx:125-151 | The four walks of one bomb mark only tiles within reach on its axes that are not unbreakable blocks. |
| Blast.AftermathTransitive | App.tsx:123-152 | The effects of two detonation steps in sequence are again such an effect, so bombs going off one after the other compose. |
| Blast.UnbreakableStays | App.tsx:130-147 | Destroying breakable blocks never creates or removes an unbreakable block, and never creates a breakable one. |
| Grid.BreakOneBlock | App.tsx:136-140 | Destroying one breakable block changes only that cell, to empty or to the goal. |
| Grid.OnlyBlocksBrokenTransitive | App.tsx:123-152 | Two rounds of block destruction compose into one. |
| Command.ParseMove | App.tsx:92-99 | A command moves the player in direction `d` exactly when, lower-cased, it reads `move <d>` followed by nothing or a space. |
| Command.ParseKeywords | App.tsx:92-111 | A command is a move, with or without a known direction, exactly when, lower-cased, it reads `move` alone or followed by a space. It gives the wait action exactly when it so reads `wait`, and the place-bomb action exactly when it so reads `bomb` or `place`. |
| Command.FirstWord | App.tsx:92-93 | The first piece of the split command is a given space-free word exactly when the command begins with that word followed by nothing or a space. |
| Command.JoinSplit | App.tsx:92 | `split(' ')` loses nothing: joining its pieces with spaces gives the input back, and no piece holds a space. |
| Command.SplitJoin | App.tsx:92 | Splitting space-free words joined by spaces gives the words back. |
| Command.Trim | App.tsx:236 | `trim` gives a slice of the input, cutting only white space off its two ends. It leaves no white space at either end, is empty exactly for all-white-space input, and keeps input without white space. |
| TurnFacts.ActionEffect | App.tsx:85-114 | The action changes only the player and the bomb list. Only a move can move the player, and only one step onto an empty or goal tile. Only `bomb` or `place` can add a bomb. A bomb with a full timer is added exactly when `bomb` or `place`, in any letter case, finds the tile bomb-free and the count below the bomb limit. A `move` without a known direction changes nothing and adds no message. The "cannot place" message appears exactly when the limit is reached, and an unknown command changes nothing but adds its message. |
| TurnFacts.MoveCommand | App.tsx:85-99 | `move <d>` reaches the neighbouring tile exactly when it is empty or the goal, and otherwise changes nothing. It never produces a message. |
| TurnFacts.TurnBombs | App.tsx:100-117 | After a turn the bombs are exactly those of the action phase whose timer was above one, each one lower. There is at most one more bomb than before. |
| TurnFacts.TickedMembers | App.tsx:117 | Ticking keeps the number of bombs and lowers every timer by one. |
| TurnFacts.TickedSurvivors | App.tsx:117-155 | The bombs that survive ticking and removal are exactly those that had a timer above one, each one lower. |
| TurnFacts.TurnKeepsBombsInOrder | App.tsx:100-155 | A turn keeps three invariants: every timer between 1 and 2, at most one bomb per tile, and no more bombs than the limit. |
| TurnFacts.ActionKeepsBombList | App.tsx:101-109 | The action phase keeps the bombs on distinct tiles and within the bomb limit, with every timer between one and the full timer. |
| TurnFacts.TickKeepsBombList | App.tsx:117-155 | Ticking and dropping spent bombs keeps the bombs apart and within the limit, and lowers the largest timer by one. |
| TurnFacts.BombFuse | App.tsx:100-155 | A bomb placed by `bomb` has two ticks left after that turn. If play goes on it has one left after a `wait`, and if play still goes on the next `wait` puts its tile on fire. |
| TurnFacts.PlacedFuse | App.tsx:101-117 | `bomb` on a free tile below the limit leaves a bomb there with one tick already gone. |
| TurnFacts.FuseTick | App.tsx:117-155 | Any turn in play takes one tick off every bomb with more than one left, and keeps it. |
| TurnFacts.FuseOut | App.tsx:117-124 | Any turn in play sets fire to the tile of every bomb with one tick left. |
| TurnFacts.TurnExplosions | App.tsx:117-154 | The explosion list after a turn holds every bomb that had one tick left, and otherwise only reachable, non-unbreakable tiles of such bombs. It is empty when no fuse runs out. |
| TurnFacts.DetonationTiles | App.tsx:120-154 | The detonation phase marks the tile of every bomb at zero, and otherwise only tiles within reach of such a bomb that were not unbreakable. |
| TurnFacts.TurnMap | App.tsx:120-218 | Outside of play a turn changes nothing. In play the map only loses breakable blocks, and only on this turn's explosion tiles. The goal becomes visible exactly when it already was or its block was destroyed. Every item is an old one or lies on a destroyed block. Every old item off the player's tile is kept and none is left on it, and the turn count goes up by one. |
| TurnFacts.TurnGrid | App.tsx:120-155 | In play the map after a turn differs from the map before it only by destroyed breakable blocks on this turn's explosion tiles, and the goal flag rises only when the goal's block is destroyed. |
| TurnFacts.TurnItems | App.tsx:134-209 | In play every item after a turn is an old one or lies on a destroyed block. Every old item off the player's tile is kept, and none is left on it. |
| TurnFacts.QuietWait | App.tsx:110-222 | A `wait` in which no fuse runs out leaves the map, the goal flag and the player's position unchanged, and clears the explosions. If no item lies on the player's tile, the items and the stats stay the same too. |
| TurnFacts.StepEnemyMoves | App.tsx:159-169 | An enemy keeps its id. It stays exactly when no neighbour is empty, and otherwise moves one step onto an empty tile. |
| TurnFacts.EveryOpenStepPossible | App.tsx:160-166 | Every empty neighbouring tile is a step some random choice takes. |
| TurnFacts.OpenMoveListed | App.tsx:159-164 | Every direction whose neighbouring tile is empty is among an enemy's valid moves. |
| TurnFacts.SweepOutcome | App.tsx:174-186 | The explosion sweep keeps exactly the enemies not on an explosion tile, with one defeat message per enemy removed. It loses the game exactly when the player is on an explosion tile. |
| TurnFacts.TurnEnemies | App.tsx:158-186 | The enemy count never grows and no enemy is left on an explosion tile. Every enemy left has an old enemy's id and stayed or stepped once onto an empty tile. |
| TurnFacts.PickUpEffect | App.tsx:196-209 | Exactly the items on the player's tile are removed. Each one raises exactly one of fire power and bomb limit by one, and neither ever goes down. |
| TurnFacts.TurnStatus | App.tsx:172-215 | After a turn the status is Win when the goal is visible and the player is on it. Otherwise it is Lose when the player is on an explosion tile or shares a tile with a surviving enemy, and otherwise Playing. |
| TurnFacts.TurnKeepsPlayerInside | App.tsx:85-90 | A walled grid stays walled and the player stays on it, off unbreakable blocks. A move therefore never reads past the edge of the map. |
| TurnFacts.NeighbourOnGrid | App.tsx:86-87 | Inside the walls every neighbouring tile of the player is on the grid. |
| Setup.ParseInitialMap | App.tsx:20-63 | Reading a layout row by row gives `Parses`: the grid cell by cell with player and enemy tags cleared and the goal hidden under a block, the last player and goal tags, every enemy in row-major order numbered from 0, and no bombs or items. |
| Setup.ParseRow | App.tsx:29-46 | One row read cell by cell extends the grid, the positions and the roster from the rows above to this row. |
| Setup.ParseCell | App.tsx:31-44 | One cell: the player tag moves the player there, the enemy tag adds an enemy with the next id, the goal tag moves the goal there, and the grid gets the cleared or hidden tag. |
| Setup.ParsesUnique | App.tsx:20-63 | The characterisation of reading has exactly one solution per layout. |
| Setup.RostersAgree | App.tsx:27-38 | Two enemy lists that both list a layout's enemies in row-major order with ids from 0 are equal. |
| Setup.InitialLayout | constants.ts:2-12 | Reading the initial layout puts the player at (2, 1), the goal at (8, 7), and enemies 0, 1, 2 at (6, 1), (6, 4), (4, 7), on nine rows of eleven cells with an unbreakable outer ring. |
| Setup.InitialCells | constants.ts:2-12 | Where the player, goal, enemy and wall tags of the initial layout are. |
| Session.HandleAction | App.tsx:235-256 | The command is trimmed and lower-cased. `start` on the start screen begins play with the same board. During play every command, `start` and `restart` included, is a turn. `restart` outside of play gives a fresh game from the initial layout in play. Anything else changes nothing. |
| Session.InitialGame | App.tsx:65-74 | A session starts on the start screen with the initial layout read, both stats at 1, turn 0, the goal hidden and no explosions. |
| Session.NewGamesAgree | App.tsx:245-253 | Every fresh game from the same layout and status is the same state. |
| Session.NewGameInvariants | App.tsx:65-74 | A fresh game from the initial layout has the player inside the walls and its bombs in order, so every later turn keeps both. |

## Left out

- Rendering: the grid, status and message components, the command input and the CSS. They do not touch the game state.
- The timer that clears explosions 500 ms after a turn (App.tsx:225-232) is left out because it is a wall-clock effect. A turn replaces the explosion list anyway.
- The `itemLocations` table (App.tsx:48-59) is left out because it has no effect. Items come only from the drop roll when a block is destroyed.
- `Math.random` is replaced by the `Oracle` parameters. The model states what holds for every outcome, not the probabilities: an item with chance 0.3, then fire-up or bomb-up with chance 0.5 each.
- Message wording and the joined message line are left out. Messages are modelled as a list of `Event` tags in the order the code emits them, and the "Turn ended" default is not modelled.
- React state plumbing (`useState`, `useCallback`, `setMessage`) is left out. The JSON deep copy becomes value semantics.
- Engine.ApplyAction: a move whose target row is off the map counts as blocked. In JavaScript, reading a missing row throws. `TurnFacts.TurnKeepsPlayerInside` and `Session.NewGameInvariants` show this never happens in a game played from the initial layout.
- Command.ParseAction: `toLowerCase` is modelled on ASCII letters only. Unicode case mapping is not modelled.
- Numbers are unbounded integers. JavaScript doubles lose precision only beyond 2^53, which a game never reaches.

=== FILE: blast.dfy ===
/**
 * The detonation pass of a turn: every bomb whose timer has reached zero
 * marks its own tile and then sends a blast in each of the four directions
 * over the shared grid, one bomb after the other.
 */
module Blast {
  import opened Types
  import opened Grid

  /**
   * What the detonation pass reads and writes: the grid, the goal flag, the
   * item list, the explosion tiles marked so far, the messages, and how many
   * item rolls have been drawn from the oracle.
   */
  datatype Blast = Blast(
    grid: GameMap,
    isGoalVisible: bool,
    items: seq<Item>,
    explosions: seq<Coords>,
    events: seq<Event>,
    draws: nat
  )

  /**
   * A blast destroys the breakable block at `c`: it becomes empty, or the
   * revealed goal when `c` is the goal tile, and the item roll may drop an item
   * there.
   */
  function Destroy(st: Blast, c: Coords, goal: Coords, drop: nat -> Option<ItemType>): Blast
    requires Cell(st.grid, c) == Some(BREAKABLE_BLOCK)
  {
    var revealed := c.y == goal.y && c.x == goal.x;
    var cleared := st.(
      grid := SetCell(st.grid, c, Debris(c, goal)),
      isGoalVisible := st.isGoalVisible || revealed,
      events := st.events + (if revealed then [ExitRevealed] else []),
      draws := st.draws + 1);
    match drop(st.draws)
    case None => cleared
    case Some(kind) =>
      cleared.(items := cleared.items + [Item(c.x, c.y, kind)], events := cleared.events + [ItemAppeared(kind)])
  }

  lemma DestroyKeepsExplosions(st: Blast, c: Coords, goal: Coords, drop: nat -> Option<ItemType>)
    requires Cell(st.grid, c) == Some(BREAKABLE_BLOCK)
    ensures Destroy(st, c, goal, drop).explosions == st.explosions
  {
  }

  /**
   * The blast from `origin` in direction `d`, from step `i` up to step
   * `firePower`: it stops before an unbreakable block, and stops after the
   * first breakable block, which it destroys. Tiles off the grid are marked
   * and passed through.
   */
  function Ray(st: Blast, goal: Coords, origin: Coords, d: Dir, i: int, firePower: int,
               drop: nat -> Option<ItemType>): Blast
    requires i >= 1
    decreases firePower - i + 1
  {
    if i > firePower then st
    else
      var c := Tile(origin, d, i);
      var cell := Cell(st.grid, c);
      if cell == Some(UNBREAKABLE_BLOCK) then st
      else
        var marked := st.(explosions := st.explosions + [c]);
        if cell == Some(BREAKABLE_BLOCK) then Destroy(marked, c, goal, drop)
        else Ray(marked, goal, origin, d, i + 1, firePower, drop)
  }

  /** The blasts from `origin` in the directions `dirs`, in order. */
  function Rays(st: Blast, goal: Coords, origin: Coords, dirs: seq<Dir>, firePower: int,
                drop: nat -> Option<ItemType>): Blast
    decreases |dirs|
  {
    if dirs == [] then st
    else Rays(Ray(st, goal, origin, dirs[0], 1, firePower, drop), goal, origin, dirs[1..], firePower, drop)
  }

  /** One bomb going off: its own tile, then the four blasts. */
  function Detonate(st: Blast, goal: Coords, bomb: Bomb, firePower: int, drop: nat -> Option<ItemType>): Blast {
    var origin := Coords(bomb.x, bomb.y);
    Rays(st.(explosions := st.explosions + [origin]), goal, origin, SCAN_ORDER, firePower, drop)
  }

  /** The bombs going off one after the other, each seeing the grid the earlier ones left. */
  function DetonateAll(st: Blast, goal: Coords, bombs: seq<Bomb>, firePower: int,
                       drop: nat -> Option<ItemType>): Blast
    decreases |bombs|
  {
    if bombs == [] then st
    else DetonateAll(Detonate(st, goal, bombs[0], firePower, drop), goal, bombs[1..], firePower, drop)
  }

  function Origins(bombs: seq<Bomb>): (r: seq<Coords>)
    ensures |r| == |bombs|
  {
    seq(|bombs|, k requires 0 <= k < |bombs| => Coords(bombs[k].x, bombs[k].y))
  }

  lemma SetCellOverwrite(grid: GameMap, c: Coords, first: char, second: char)
    requires InGrid(grid, c.x, c.y)
    ensures SetCell(SetCell(grid, c, first), c, second) == SetCell(grid, c, second)
  {
    assert SetCell(grid, c, first)[c.y][c.x := second] == grid[c.y][c.x := second];
  }

  /**
   * The detonation pass as the game runs it: for each exploding bomb, its
   * tile, then for each direction a walk of at most `firePower` steps that
   * breaks off at a block.
   */
  method Detonations(start: Blast, goal: Coords, exploding: seq<Bomb>, firePower: int,
                     drop: nat -> Option<ItemType>) returns (st: Blast)
    ensures st == DetonateAll(start, goal, exploding, firePower, drop)
  {
    st := start;
    for k := 0 to |exploding|
      invariant DetonateAll(st, goal, exploding[k..], firePower, drop) ==
                DetonateAll(start, goal, exploding, firePower, drop)
    {
      var bomb := exploding[k];
      var origin := Coords(bomb.x, bomb.y);
      ghost var before := st;
      st := st.(explosions := st.explosions + [origin]);
      for j := 0 to |SCAN_ORDER|
        invariant Rays(st, goal, origin, SCAN_ORDER[j..], firePower, drop) ==
                  Detonate(before, goal, bomb, firePower, drop)
      {
        var dir := SCAN_ORDER[j];
        st := BlastWalk(st, goal, origin, dir, firePower, drop);
        assert SCAN_ORDER[j..][1..] == SCAN_ORDER[j + 1..];
      }
      assert exploding[k..][1..] == exploding[k + 1..];
    }
  }

  /** One direction of one bomb: the inner loop of the detonation pass. */
  method BlastWalk(start: Blast, goal: Coords, origin: Coords, dir: Dir, firePower: int,
                   drop: nat -> Option<ItemType>) returns (st: Blast)
    ensures st == Ray(start, goal, origin, dir, 1, firePower, drop)
  {
    st := start;
    var i := 1;
    while i <= firePower
      invariant i >= 1
      invariant Ray(st, goal, origin, dir, i, firePower, drop) == Ray(start, goal, origin, dir, 1, firePower, drop)
      decreases firePower - i
    {
      var c := Tile(origin, dir, i);
      if Cell(st.grid, c) == Some(UNBREAKABLE_BLOCK) {
        break;
      }
      st := st.(explosions := st.explosions + [c]);
      if Cell(st.grid, c) == Some(BREAKABLE_BLOCK) {
        ghost var marked := st;
        st := st.(grid := SetCell(st.grid, c, EMPTY));
        if c.y == goal.y && c.x == goal.x {
          SetCellOverwrite(marked.grid, c, EMPTY, GOAL);
          st := st.(isGoalVisible := true, grid := SetCell(st.grid, c, GOAL), events := st.events + [ExitRevealed]);
        }
        var roll := drop(st.draws);
        st := st.(draws := st.draws + 1);
        if roll.Some? {
          st := st.(items := st.items + [Item(c.x, c.y, roll.value)], events := st.events + [ItemAppeared(roll.value)]);
        }
        assert st == Destroy(marked, c, goal, drop);
        break;
      }
      i := i + 1;
    }
  }

  /** The explosion tiles a blast appends to those of `st`. */
  function Added(st: Blast, r: Blast): seq<Coords>
    requires |st.explosions| <= |r.explosions|
  {
    r.explosions[|st.explosions|..]
  }

  /**
   * The tiles one blast marks, started at step `i`: the tiles at steps
   * i, i+1, ... in direction `d`, never beyond step `firePower`, never an
   * unbreakable block, and a breakable block only as the last one.
   */
  lemma {:induction false} RayTiles(st: Blast, goal: Coords, origin: Coords, d: Dir, i: int, firePower: int,
                                    drop: nat -> Option<ItemType>)
    requires i >= 1
    ensures var r := Ray(st, goal, origin, d, i, firePower, drop);
      |st.explosions| <= |r.explosions| && r.explosions[..|st.explosions|] == st.explosions &&
      var added := Added(st, r);
      (added == [] || i + |added| - 1 <= firePower) &&
      (forall j :: 0 <= j < |added| ==> added[j] == Tile(origin, d, i + j)) &&
      (forall j :: 0 <= j < |added| ==> Cell(st.grid, added[j]) != Some(UNBREAKABLE_BLOCK)) &&
      (forall j :: 0 <= j < |added| - 1 ==> Cell(st.grid, added[j]) != Some(BREAKABLE_BLOCK))
    decreases firePower - i + 1
  {
    var r := Ray(st, goal, origin, d, i, firePower, drop);
    RayGrows(st, goal, origin, d, i, firePower, drop);
    if i <= firePower {
      var c := Tile(origin, d, i);
      var cell := Cell(st.grid, c);
      if cell != Some(UNBREAKABLE_BLOCK) {
        var marked := st.(explosions := st.explosions + [c]);
        if cell == Some(BREAKABLE_BLOCK) {
          DestroyKeepsExplosions(marked, c, goal, drop);
          assert Added(st, r) == [c];
        } else {
          RayTiles(marked, goal, origin, d, i + 1, firePower, drop);
          assert Added(st, r) == [c] + Added(marked, r);
          TilesFrom(st.grid, origin, d, i, Added(marked, r));
        }
      }
    }
  }

  /** The tiles at steps i+1, i+2, ... of a walk, preceded by an open tile at step i, are the tiles at steps i, i+1, .... */
  lemma TilesFrom(grid: GameMap, origin: Coords, d: Dir, i: int, rest: seq<Coords>)
    requires var c := Tile(origin, d, i);
      Cell(grid, c) != Some(UNBREAKABLE_BLOCK) && Cell(grid, c) != Some(BREAKABLE_BLOCK)
    requires forall j :: 0 <= j < |rest| ==> rest[j] == Tile(origin, d, i + 1 + j)
    requires forall j :: 0 <= j < |rest| ==> Cell(grid, rest[j]) != Some(UNBREAKABLE_BLOCK)
    requires forall j :: 0 <= j < |rest| - 1 ==> Cell(grid, rest[j]) != Some(BREAKABLE_BLOCK)
    ensures var all := [Tile(origin, d, i)] + rest;
      (forall j :: 0 <= j < |all| ==> all[j] == Tile(origin, d, i + j)) &&
      (forall j :: 0 <= j < |all| ==> Cell(grid, all[j]) != Some(UNBREAKABLE_BLOCK)) &&
      (forall j :: 0 <= j < |all| - 1 ==> Cell(grid, all[j]) != Some(BREAKABLE_BLOCK))
  {
    var all := [Tile(origin, d, i)] + rest;
    forall j | 1 <= j < |all|
      ensures all[j] == Tile(origin, d, i + j) && Cell(grid, all[j]) != Some(UNBREAKABLE_BLOCK)
      ensures j < |all| - 1 ==> Cell(grid, all[j]) != Some(BREAKABLE_BLOCK)
    {
      assert all[j] == rest[j - 1];
      assert i + 1 + (j - 1) == i + j;
    }
  }

  /** A blast only appends to the explosion tiles. */
  lemma {:induction false} RayGrows(st: Blast, goal: Coords, origin: Coords, d: Dir, i: int, firePower: int,
                                    drop: nat -> Option<ItemType>)
    requires i >= 1
    ensures var r := Ray(st, goal, origin, d, i, firePower, drop);
      |st.explosions| <= |r.explosions| && r.explosions[..|st.explosions|] == st.explosions
    decreases firePower - i + 1
  {
    if i <= firePower {
      var c := Tile(origin, d, i);
      var cell := Cell(st.grid, c);
      if cell != Some(UNBREAKABLE_BLOCK) && cell != Some(BREAKABLE_BLOCK) {
        var marked := st.(explosions := st.explosions + [c]);
        var r := Ray(st, goal, origin, d, i, firePower, drop);
        RayGrows(marked, goal, origin, d, i + 1, firePower, drop);
        assert r.explosions[..|st.explosions|] == marked.explosions[..|st.explosions|];
      }
    }
  }

  /**
   * A blast ends before step `firePower` only at a block: the last tile it
   * marked was a breakable block, or the next tile is an unbreakable one.
   */
  lemma {:induction false} RayStops(st: Blast, goal: Coords, origin: Coords, d: Dir, i: int, firePower: int,
                                    drop: nat -> Option<ItemType>)
    requires i >= 1
    ensures var r := Ray(st, goal, origin, d, i, firePower, drop);
      |st.explosions| <= |r.explosions| &&
      var added := Added(st, r);
      var last := i + |added| - 1;
      last < firePower ==>
        (added != [] && Cell(st.grid, added[|added| - 1]) == Some(BREAKABLE_BLOCK)) ||
        Cell(st.grid, Tile(origin, d, last + 1)) == Some(UNBREAKABLE_BLOCK)
    decreases firePower - i + 1
  {
    var r := Ray(st, goal, origin, d, i, firePower, drop);
    RayGrows(st, goal, origin, d, i, firePower, drop);
    if i <= firePower {
      var c := Tile(origin, d, i);
      var cell := Cell(st.grid, c);
      if cell != Some(UNBREAKABLE_BLOCK) {
        var marked := st.(explosions := st.explosions + [c]);
        if cell == Some(BREAKABLE_BLOCK) {
          assert Added(st, r) == [c];
        } else {
          RayStops(marked, goal, origin, d, i + 1, firePower, drop);
          RayGrows(marked, goal, origin, d, i + 1, firePower, drop);
          var added' := Added(marked, r);
          var added := Added(st, r);
          assert added == [c] + added';
          if added' != [] {
            assert added[|added| - 1] == added'[|added'| - 1];
          }
        }
      }
    }
  }

  /**
   * What a blast does besides marking tiles: if the last tile it marked was a
   * breakable block it destroys that block, and otherwise nothing.
   */
  lemma {:induction false} RayEffect(st: Blast, goal: Coords, origin: Coords, d: Dir, i: int, firePower: int,
                                     drop: nat -> Option<ItemType>)
    requires i >= 1
    ensures var r := Ray(st, goal, origin, d, i, firePower, drop);
      |st.explosions| <= |r.explosions| &&
      var added := Added(st, r);
      if added != [] && Cell(st.grid, added[|added| - 1]) == Some(BREAKABLE_BLOCK)
      then r == Destroy(st.(explosions := r.explosions), added[|added| - 1], goal, drop)
      else r == st.(explosions := r.explosions)
    decreases firePower - i + 1
  {
    var r := Ray(st, goal, origin, d, i, firePower, drop);
    RayGrows(st, goal, origin, d, i, firePower, drop);
    if i <= firePower {
      var c := Tile(origin, d, i);
      var cell := Cell(st.grid, c);
      if cell != Some(UNBREAKABLE_BLOCK) {
        var marked := st.(explosions := st.explosions + [c]);
        if cell == Some(BREAKABLE_BLOCK) {
          assert r.explosions == marked.explosions;
          assert Added(st, r) == [c];
        } else {
          RayEffect(marked, goal, origin, d, i + 1, firePower, drop);
          RayGrows(marked, goal, origin, d, i + 1, firePower, drop);
          var added' := Added(marked, r);
          var added := Added(st, r);
          assert added == [c] + added';
          assert marked.(explosions := r.explosions) == st.(explosions := r.explosions);
          if added' == [] {
            assert added == [c];
          } else {
            assert added[|added| - 1] == added'[|added'| - 1];
          }
        }
      }
    }
  }

  /** The breakable block at `c` in `before` is gone in `after`. */
  predicate Broken(before: GameMap, after: GameMap, c: Coords) {
    Cell(before, c) == Some(BREAKABLE_BLOCK) && Cell(after, c) != Some(BREAKABLE_BLOCK)
  }

  /** Every cell that differs between `st` and `r` lies on a tile appended to the explosions between them. */
  ghost predicate ChangesMarked(st: Blast, r: Blast) {
    |st.explosions| <= |r.explosions| &&
    forall c :: Cell(st.grid, c) != Cell(r.grid, c) ==> c in Added(st, r)
  }

  /**
   * What a detonation may have done between `st` and `r`: explosion tiles and
   * items appended, breakable blocks destroyed and nothing else on the grid
   * changed, every changed cell on an appended explosion tile, the goal flag
   * raised only by destroying the block over the goal, and new items only on
   * destroyed blocks.
   */
  ghost predicate Aftermath(st: Blast, r: Blast, goal: Coords) {
    |st.explosions| <= |r.explosions| && r.explosions[..|st.explosions|] == st.explosions &&
    OnlyBlocksBroken(st.grid, r.grid, goal) && ChangesMarked(st, r) &&
    (r.isGoalVisible <==>
      st.isGoalVisible || (Cell(st.grid, goal) == Some(BREAKABLE_BLOCK) && Cell(r.grid, goal) == Some(GOAL))) &&
    |st.items| <= |r.items| && r.items[..|st.items|] == st.items &&
    (forall k :: |st.items| <= k < |r.items| ==> Broken(st.grid, r.grid, Coords(r.items[k].x, r.items[k].y)))
  }

  lemma UnbreakableStays(m0: GameMap, m1: GameMap, goal: Coords, c: Coords)
    requires OnlyBlocksBroken(m0, m1, goal)
    ensures Cell(m1, c) == Some(UNBREAKABLE_BLOCK) <==> Cell(m0, c) == Some(UNBREAKABLE_BLOCK)
    ensures Cell(m1, c) == Some(BREAKABLE_BLOCK) ==> Cell(m0, c) == Some(BREAKABLE_BLOCK)
  {
    if InGrid(m0, c.x, c.y) {
      assert InGrid(m1, c.x, c.y);
    }
  }

  lemma ChangesMarkedTransitive(s0: Blast, s1: Blast, s2: Blast)
    requires |s0.explosions| <= |s1.explosions| && s1.explosions[..|s0.explosions|] == s0.explosions
    requires |s1.explosions| <= |s2.explosions| && s2.explosions[..|s1.explosions|] == s1.explosions
    requires ChangesMarked(s0, s1) && ChangesMarked(s1, s2)
    ensures ChangesMarked(s0, s2)
  {
    AddedConcat(s0, s1, s2);
    forall c | Cell(s0.grid, c) != Cell(s2.grid, c)
      ensures c in Added(s0, s2)
    {
      if Cell(s0.grid, c) != Cell(s1.grid, c) {
        assert c in Added(s0, s1);
      } else {
        assert c in Added(s1, s2);
      }
    }
  }

  lemma {:induction false} AftermathTransitive(s0: Blast, s1: Blast, s2: Blast, goal: Coords)
    requires Aftermath(s0, s1, goal) && Aftermath(s1, s2, goal)
    ensures Aftermath(s0, s2, goal)
  {
    ChangesMarkedTransitive(s0, s1, s2);
    OnlyBlocksBrokenTransitive(s0.grid, s1.grid, s2.grid, goal);
    UnbreakableStays(s0.grid, s1.grid, goal, goal);
    UnbreakableStays(s1.grid, s2.grid, goal, goal);
    if InGrid(s0.grid, goal.x, goal.y) {
      assert InGrid(s1.grid, goal.x, goal.y);
    }
    assert s2.explosions[..|s0.explosions|] == s1.explosions[..|s1.explosions|][..|s0.explosions|];
    assert s2.items[..|s0.items|] == s1.items[..|s1.items|][..|s0.items|];
    forall k | |s0.items| <= k < |s2.items|
      ensures Broken(s0.grid, s2.grid, Coords(s2.items[k].x, s2.items[k].y))
    {
      var c := Coords(s2.items[k].x, s2.items[k].y);
      UnbreakableStays(s0.grid, s1.grid, goal, c);
      UnbreakableStays(s1.grid, s2.grid, goal, c);
      if k < |s1.items| {
        assert s2.items[k] == s1.items[k];
        assert Broken(s0.grid, s1.grid, c);
        assert InGrid(s1.grid, c.x, c.y);
      } else {
        assert Broken(s1.grid, s2.grid, c);
      }
    }
  }

  /** Marking the tiles `es` after those of `st`, `c` among them, and then destroying the block at `c`. */
  lemma DestroyAftermath(st: Blast, es: seq<Coords>, c: Coords, goal: Coords, drop: nat -> Option<ItemType>)
    requires Cell(st.grid, c) == Some(BREAKABLE_BLOCK)
    requires |st.explosions| <= |es| && es[..|st.explosions|] == st.explosions && c in es[|st.explosions|..]
    ensures Aftermath(st, Destroy(st.(explosions := es), c, goal, drop), goal)
  {
    var r := Destroy(st.(explosions := es), c, goal, drop);
    BreakOneBlock(st.grid, c, goal);
    assert r.explosions == es;
    assert r.items[..|st.items|] == st.items;
    forall e | Cell(st.grid, e) != Cell(r.grid, e)
      ensures e in Added(st, r)
    {
      assert e == c;
    }
  }

  lemma {:induction false} RayAftermath(st: Blast, goal: Coords, origin: Coords, d: Dir, firePower: int,
                                        drop: nat -> Option<ItemType>)
    ensures Aftermath(st, Ray(st, goal, origin, d, 1, firePower, drop), goal)
  {
    var r := Ray(st, goal, origin, d, 1, firePower, drop);
    RayTiles(st, goal, origin, d, 1, firePower, drop);
    RayEffect(st, goal, origin, d, 1, firePower, drop);
    var n := |st.explosions|;
    var added := r.explosions[n..];
    var marked := st.(explosions := r.explosions);
    if added != [] && Cell(st.grid, added[|added| - 1]) == Some(BREAKABLE_BLOCK) {
      DestroyAftermath(st, r.explosions, added[|added| - 1], goal, drop);
    } else {
      OnlyBlocksBrokenReflexive(st.grid, goal);
      assert r.items[..|st.items|] == st.items;
    }
  }

  lemma {:induction false} RaysAftermath(st: Blast, goal: Coords, origin: Coords, dirs: seq<Dir>, firePower: int,
                                         drop: nat -> Option<ItemType>)
    ensures Aftermath(st, Rays(st, goal, origin, dirs, firePower, drop), goal)
    decreases |dirs|
  {
    if dirs == [] {
      OnlyBlocksBrokenReflexive(st.grid, goal);
      assert st.explosions[..|st.explosions|] == st.explosions;
      assert st.items[..|st.items|] == st.items;
    } else {
      var mid := Ray(st, goal, origin, dirs[0], 1, firePower, drop);
      RayAftermath(st, goal, origin, dirs[0], firePower, drop);
      RaysAftermath(mid, goal, origin, dirs[1..], firePower, drop);
      AftermathTransitive(st, mid, Rays(st, goal, origin, dirs, firePower, drop), goal);
    }
  }

  lemma {:induction false} DetonateAftermath(st: Blast, goal: Coords, bomb: Bomb, firePower: int,
                                             drop: nat -> Option<ItemType>)
    ensures Aftermath(st, Detonate(st, goal, bomb, firePower, drop), goal)
  {
    var origin := Coords(bomb.x, bomb.y);
    var lit := st.(explosions := st.explosions + [origin]);
    OnlyBlocksBrokenReflexive(st.grid, goal);
    assert lit.explosions[..|st.explosions|] == st.explosions;
    assert lit.items[..|st.items|] == st.items;
    RaysAftermath(lit, goal, origin, SCAN_ORDER, firePower, drop);
    AftermathTransitive(st, lit, Detonate(st, goal, bomb, firePower, drop), goal);
  }

  /**
   * A whole detonation pass only appends explosion tiles and items, only
   * destroys breakable blocks, raises the goal flag only by uncovering the
   * goal, and drops items only on destroyed blocks.
   */
  lemma {:induction false} DetonateAllAftermath(st: Blast, goal: Coords, bombs: seq<Bomb>, firePower: int,
                                                drop: nat -> Option<ItemType>)
    ensures Aftermath(st, DetonateAll(st, goal, bombs, firePower, drop), goal)
    decreases |bombs|
  {
    if bombs == [] {
      OnlyBlocksBrokenReflexive(st.grid, goal);
      assert st.explosions[..|st.explosions|] == st.explosions;
      assert st.items[..|st.items|] == st.items;
    } else {
      var mid := Detonate(st, goal, bombs[0], firePower, drop);
      DetonateAftermath(st, goal, bombs[0], firePower, drop);
      DetonateAllAftermath(mid, goal, bombs[1..], firePower, drop);
      AftermathTransitive(st, mid, DetonateAll(st, goal, bombs, firePower, drop), goal);
    }
  }

  lemma AddedConcat(s0: Blast, s1: Blast, s2: Blast)
    requires |s0.explosions| <= |s1.explosions| && s1.explosions[..|s0.explosions|] == s0.explosions
    requires |s1.explosions| <= |s2.explosions| && s2.explosions[..|s1.explosions|] == s1.explosions
    ensures Added(s0, s2) == Added(s0, s1) + Added(s1, s2)
  {
    assert s2.explosions == s1.explosions + Added(s1, s2);
    assert s1.explosions == s0.explosions + Added(s0, s1);
  }

  /** `e` lies on one of the four axes through `origin`, at most `firePower` steps away. */
  ghost predicate Reached(e: Coords, origin: Coords, firePower: int) {
    exists d: Dir, k :: 1 <= k <= firePower && e == Tile(origin, d, k)
  }

  /** Every tile the four blasts of one bomb mark is within reach and not an unbreakable block. */
  lemma {:induction false} RaysReach(st: Blast, goal: Coords, origin: Coords, dirs: seq<Dir>, firePower: int,
                                     drop: nat -> Option<ItemType>)
    ensures var r := Rays(st, goal, origin, dirs, firePower, drop);
      |st.explosions| <= |r.explosions| &&
      forall e :: e in Added(st, r) ==>
        Cell(st.grid, e) != Some(UNBREAKABLE_BLOCK) && Reached(e, origin, firePower)
    decreases |dirs|
  {
    var r := Rays(st, goal, origin, dirs, firePower, drop);
    RaysAftermath(st, goal, origin, dirs, firePower, drop);
    if dirs != [] {
      var mid := Ray(st, goal, origin, dirs[0], 1, firePower, drop);
      RayTiles(st, goal, origin, dirs[0], 1, firePower, drop);
      RayAftermath(st, goal, origin, dirs[0], firePower, drop);
      RaysReach(mid, goal, origin, dirs[1..], firePower, drop);
      RaysAftermath(mid, goal, origin, dirs[1..], firePower, drop);
      AddedConcat(st, mid, r);
      forall e | e in Added(st, r)
        ensures Cell(st.grid, e) != Some(UNBREAKABLE_BLOCK) && Reached(e, origin, firePower)
      {
        if e in Added(st, mid) {
          var j :| 0 <= j < |Added(st, mid)| && Added(st, mid)[j] == e;
          assert e == Tile(origin, dirs[0], 1 + j);
        } else {
          UnbreakableStays(st.grid, mid.grid, goal, e);
        }
      }
    }
  }

  /** A detonation pass marks the tile of every bomb that goes off. */
  lemma {:induction false} DetonateAllOrigins(st: Blast, goal: Coords, bombs: seq<Bomb>, firePower: int,
                                              drop: nat -> Option<ItemType>)
    ensures var r := DetonateAll(st, goal, bombs, firePower, drop);
      |st.explosions| <= |r.explosions| && forall b :: b in bombs ==> Coords(b.x, b.y) in Added(st, r)
    decreases |bombs|
  {
    var r := DetonateAll(st, goal, bombs, firePower, drop);
    DetonateAllAftermath(st, goal, bombs, firePower, drop);
    if bombs != [] {
      var b0 := bombs[0];
      var origin := Coords(b0.x, b0.y);
      var lit := st.(explosions := st.explosions + [origin]);
      var mid := Detonate(st, goal, b0, firePower, drop);
      DetonateAftermath(st, goal, b0, firePower, drop);
      RaysAftermath(lit, goal, origin, SCAN_ORDER, firePower, drop);
      DetonateAllOrigins(mid, goal, bombs[1..], firePower, drop);
      DetonateAllAftermath(mid, goal, bombs[1..], firePower, drop);
      assert lit.explosions[..|st.explosions|] == st.explosions;
      AddedConcat(st, lit, mid);
      AddedConcat(st, mid, r);
      assert Added(st, lit) == [origin];
      forall b | b in bombs ensures Coords(b.x, b.y) in Added(st, r) {
        if b != b0 {
          assert b in bombs[1..];
        }
      }
    }
  }

  /**
   * Besides the bombs' own tiles, a detonation pass marks only tiles within
   * reach of an exploding bomb that were not unbreakable blocks.
   */
  lemma {:induction false} DetonateAllBounded(st: Blast, goal: Coords, bombs: seq<Bomb>, firePower: int,
                                              drop: nat -> Option<ItemType>)
    ensures var r := DetonateAll(st, goal, bombs, firePower, drop);
      |st.explosions| <= |r.explosions| &&
      (forall e :: e in Added(st, r) ==>
        e in Origins(bombs) ||
        (Cell(st.grid, e) != Some(UNBREAKABLE_BLOCK) &&
         exists b :: b in bombs && Reached(e, Coords(b.x, b.y), firePower)))
    decreases |bombs|
  {
    var r := DetonateAll(st, goal, bombs, firePower, drop);
    DetonateAllAftermath(st, goal, bombs, firePower, drop);
    if bombs != [] {
      var b0 := bombs[0];
      var origin := Coords(b0.x, b0.y);
      var lit := st.(explosions := st.explosions + [origin]);
      var mid := Detonate(st, goal, b0, firePower, drop);
      RaysReach(lit, goal, origin, SCAN_ORDER, firePower, drop);
      DetonateAftermath(st, goal, b0, firePower, drop);
      DetonateAllBounded(mid, goal, bombs[1..], firePower, drop);
      DetonateAllAftermath(mid, goal, bombs[1..], firePower, drop);
      RaysAftermath(lit, goal, origin, SCAN_ORDER, firePower, drop);
      assert lit.explosions[..|st.explosions|] == st.explosions;
      AddedConcat(st, lit, mid);
      AddedConcat(st, mid, r);
      assert Added(st, lit) == [origin];
      assert Origins(bombs) == [origin] + Origins(bombs[1..]);
      forall e | e in Added(st, r)
        ensures e in Origins(bombs) ||
          (Cell(st.grid, e) != Some(UNBREAKABLE_BLOCK) &&
           exists b :: b in bombs && Reached(e, Coords(b.x, b.y), firePower))
      {
        if e in Added(mid, r) && e !in Origins(bombs[1..]) {
          UnbreakableStays(st.grid, mid.grid, goal, e);
          var b :| b in bombs[1..] && Reached(e, Coords(b.x, b.y), firePower);
          assert b in bombs;
        } else if e in Added(lit, mid) {
          assert b0 in bombs;
        }
      }
    }
  }

  /**
   * The tiles a detonation pass marks: every exploding bomb's own tile, and
   * besides those only tiles within reach of an exploding bomb that were not
   * unbreakable blocks.
   */
  lemma DetonateAllTiles(st: Blast, goal: Coords, bombs: seq<Bomb>, firePower: int,
                         drop: nat -> Option<ItemType>)
    ensures var r := DetonateAll(st, goal, bombs, firePower, drop);
      |st.explosions| <= |r.explosions| &&
      (forall b :: b in bombs ==> Coords(b.x, b.y) in Added(st, r)) &&
      (forall e :: e in Added(st, r) ==>
        e in Origins(bombs) ||
        (Cell(st.grid, e) != Some(UNBREAKABLE_BLOCK) &&
         exists b :: b in bombs && Reached(e, Coords(b.x, b.y), firePower)))
  {
    DetonateAllOrigins(st, goal, bombs, firePower, drop);
    DetonateAllBounded(st, goal, bombs, firePower, drop);
  }
}

=== FILE: command.dfy ===
/**
 * Reading a typed command: the lower-casing, trimming and splitting on
 * spaces that the game applies to its input, and the classification of the
 * first two words into a player action.
 */
module Command {
  import opened Types
  import opened Grid

  /** What the first word (and, for `move`, the second) asks the player to do. */
  datatype Action = Move(dir: Option<Dir>) | PlaceBomb | Wait | Unknown

  function LowerChar(c: char): char {
    if 'A' <= c <= 'Z' then (c as int + 32) as char else c
  }

  /** Lower-casing, on the ASCII letters. */
  function ToLower(s: string): string {
    seq(|s|, i requires 0 <= i < |s| => LowerChar(s[i]))
  }

  /** The characters that ECMAScript's `trim` removes: white space and line terminators. */
  predicate IsWhitespace(c: char) {
    c == '\t' || c == '\n' || c == '\U{000B}' || c == '\U{000C}' || c == '\r' || c == ' ' ||
    c == '\U{00A0}' || c == '\U{1680}' || ('\U{2000}' <= c <= '\U{200A}') ||
    c == '\U{2028}' || c == '\U{2029}' || c == '\U{202F}' || c == '\U{205F}' ||
    c == '\U{3000}' || c == '\U{FEFF}'
  }

  /** `s` without its leading white space. */
  function TrimStart(s: string): (r: string)
    ensures |r| <= |s| && r == s[|s| - |r|..]
    ensures forall i :: 0 <= i < |s| - |r| ==> IsWhitespace(s[i])
    ensures r == [] || !IsWhitespace(r[0])
    decreases |s|
  {
    if s != [] && IsWhitespace(s[0]) then TrimStart(s[1..]) else s
  }

  /** `s` without its trailing white space. */
  function TrimEnd(s: string): (r: string)
    ensures |r| <= |s| && r == s[..|r|]
    ensures forall i :: |r| <= i < |s| ==> IsWhitespace(s[i])
    ensures r == [] || !IsWhitespace(r[|r| - 1])
    decreases |s|
  {
    if s != [] && IsWhitespace(s[|s| - 1]) then TrimEnd(s[..|s| - 1]) else s
  }

  /** ECMAScript's `trim`: leading and trailing white space removed. */
  function Trim(s: string): (r: string)
    ensures r == [] || (!IsWhitespace(r[0]) && !IsWhitespace(r[|r| - 1]))
    ensures r == [] <==> forall i :: 0 <= i < |s| ==> IsWhitespace(s[i])
    ensures (forall i :: 0 <= i < |s| ==> !IsWhitespace(s[i])) ==> r == s
    ensures exists i, j :: CutOff(s, r, i, j)
  {
    var t := TrimStart(s);
    var r := TrimEnd(t);
    CutBothEnds(s, t, r);
    assert t == [] || IsWhitespace(t[|t| - 1]) || r == t;
    assert r == [] ==> t == [] by {
      assert t == [] || !IsWhitespace(t[0]);
    }
    r
  }

  /** `r` is `s[i..j]`, and everything before `i` and from `j` on is white space. */
  predicate CutOff(s: string, r: string, i: int, j: int) {
    0 <= i <= j <= |s| && r == s[i..j] &&
    (forall k :: 0 <= k < i ==> IsWhitespace(s[k])) &&
    (forall k :: j <= k < |s| ==> IsWhitespace(s[k]))
  }

  /**
   * Cutting white space off the front of `s`, giving `t`, and then off the
   * back of `t`, giving `r`, cuts only white space off either end of `s`.
   */
  lemma CutBothEnds(s: string, t: string, r: string)
    requires |t| <= |s| && t == s[|s| - |t|..]
    requires forall k :: 0 <= k < |s| - |t| ==> IsWhitespace(s[k])
    requires |r| <= |t| && r == t[..|r|]
    requires forall k :: |r| <= k < |t| ==> IsWhitespace(t[k])
    ensures exists i, j :: CutOff(s, r, i, j)
  {
    var i := |s| - |t|;
    var j := i + |r|;
    assert r == s[i..j];
    forall k | j <= k < |s|
      ensures IsWhitespace(s[k])
    {
      assert s[k] == t[k - i];
    }
    assert CutOff(s, r, i, j);
  }

  /** `s.split(' ')`: the pieces between single spaces (possibly empty), never none. */
  function Split(s: string): (r: seq<string>)
    ensures |r| >= 1
    decreases |s|
  {
    if s == [] then [""]
    else
      var rest := Split(s[1..]);
      if s[0] == ' ' then [""] + rest
      else [[s[0]] + rest[0]] + rest[1..]
  }

  /** `words.join(' ')`. */
  function Join(words: seq<string>): string
    requires |words| >= 1
    decreases |words|
  {
    if |words| == 1 then words[0] else words[0] + " " + Join(words[1..])
  }

  /** Joining the pieces of a split gives back the input, and no piece holds a space. */
  lemma {:induction false} JoinSplit(s: string)
    ensures Join(Split(s)) == s
    ensures forall w :: w in Split(s) ==> ' ' !in w
    decreases |s|
  {
    if s != [] {
      var rest := Split(s[1..]);
      JoinSplit(s[1..]);
      if s[0] == ' ' {
        assert Split(s)[1..] == rest;
      } else {
        var r := Split(s);
        assert r[1..] == rest[1..];
        if |rest| > 1 {
          assert Join(rest) == rest[0] + " " + Join(rest[1..]);
        }
        assert s == [s[0]] + s[1..];
        forall w | w in r ensures ' ' !in w {
          if w == r[0] {
            assert w == [s[0]] + rest[0];
          } else {
            assert w in rest;
          }
        }
      }
    }
  }

  /** A word without spaces glued onto the front of a string becomes part of its first piece. */
  lemma {:induction false} SplitGlue(w: string, t: string)
    requires ' ' !in w
    ensures Split(w + t) == [w + Split(t)[0]] + Split(t)[1..]
    decreases |w|
  {
    if w != [] {
      SplitGlue(w[1..], t);
      assert (w + t)[1..] == w[1..] + t;
      assert w[0] != ' ' by { assert w[0] in w; }
      assert [w[0]] + (w[1..] + Split(t)[0]) == w + Split(t)[0];
    } else {
      assert w + t == t;
      assert w + Split(t)[0] == Split(t)[0];
      assert Split(t) == [Split(t)[0]] + Split(t)[1..];
    }
  }

  /** Splitting the join of space-free words gives back the words. */
  lemma {:induction false} SplitJoin(words: seq<string>)
    requires |words| >= 1
    requires forall w :: w in words ==> ' ' !in w
    ensures Split(Join(words)) == words
    decreases |words|
  {
    var w := words[0];
    if |words| == 1 {
      SplitGlue(w, "");
      assert w + "" == w;
      assert Split("") == [""];
    } else {
      SplitJoin(words[1..]);
      var t := " " + Join(words[1..]);
      SplitGlue(w, t);
      assert t[0] == ' ' && t[1..] == Join(words[1..]);
      assert Split(t) == [""] + words[1..];
      assert w + t == Join(words);
      assert w + "" == w;
      assert words == [w] + words[1..];
    }
  }

  function DirectionOf(word: string): Option<Dir> {
    if word == "up" then Some(Up)
    else if word == "down" then Some(Down)
    else if word == "left" then Some(Left)
    else if word == "right" then Some(Right)
    else None
  }

  function DirectionName(d: Dir): string {
    match d
    case Up => "up"
    case Down => "down"
    case Left => "left"
    case Right => "right"
  }

  /** The action a turn command asks for: its first word, and for `move` its second. */
  function ParseAction(action: string): Action {
    var command := Split(ToLower(action));
    if command[0] == "move" then Move(if |command| > 1 then DirectionOf(command[1]) else None)
    else if command[0] == "bomb" || command[0] == "place" then PlaceBomb
    else if command[0] == "wait" then Wait
    else Unknown
  }

  /** `l` begins with `p`, followed by nothing or by a space and anything. */
  predicate Leads(l: string, p: string) {
    |p| <= |l| && l[..|p|] == p && (|l| == |p| || l[|p|] == ' ')
  }

  /** `move <d>` followed by nothing or by a space and anything. */
  predicate IsMoveCommand(l: string, d: Dir) {
    Leads(l, "move " + DirectionName(d))
  }

  /** The first two pieces of `a b...` are `a` and `b` when neither holds a space. */
  lemma SplitTwoWords(a: string, b: string, rest: string)
    requires ' ' !in a && ' ' !in b && (rest == [] || rest[0] == ' ')
    ensures var c := Split(a + " " + b + rest); |c| > 1 && c[0] == a && c[1] == b
  {
    var t := " " + b + rest;
    SplitGlue(a, t);
    assert a + " " + b + rest == a + t;
    assert t[0] == ' ' && t[1..] == b + rest;
    assert Split(t) == [""] + Split(b + rest);
    SplitGlue(b, rest);
    assert Split(rest)[0] == "";
    assert a + "" == a && b + "" == b;
  }

  lemma MoveWords(l: string, d: Dir)
    requires IsMoveCommand(l, d)
    ensures |Split(l)| > 1 && Split(l)[0] == "move" && Split(l)[1] == DirectionName(d)
  {
    var name := DirectionName(d);
    var p := "move " + name;
    var rest := l[|p|..];
    assert l == "move" + " " + name + rest;
    assert ' ' !in "move" && ' ' !in name;
    SplitTwoWords("move", name, rest);
  }

  lemma MoveWordsConverse(l: string, d: Dir)
    requires var command := Split(l);
      |command| > 1 && command[0] == "move" && command[1] == DirectionName(d)
    ensures IsMoveCommand(l, d)
  {
    var command := Split(l);
    var name := DirectionName(d);
    var p := "move " + name;
    JoinSplit(l);
    assert l == "move" + " " + Join(command[1..]);
    assert command[1..][0] == name;
    if |command| > 2 {
      assert command[1..][1..] == command[2..];
      assert Join(command[1..]) == name + " " + Join(command[2..]);
      assert l == p + (" " + Join(command[2..]));
    } else {
      assert Join(command[1..]) == name;
      assert l == p;
    }
  }

  /**
   * A command moves the player in direction `d` exactly when, lower-cased, it
   * reads `move <d>` followed by nothing or by a space.
   */
  lemma ParseMove(action: string, d: Dir)
    ensures ParseAction(action) == Move(Some(d)) <==> IsMoveCommand(ToLower(action), d)
  {
    var l := ToLower(action);
    if IsMoveCommand(l, d) {
      MoveWords(l, d);
    }
    if ParseAction(action) == Move(Some(d)) {
      var command := Split(l);
      assert DirectionOf(command[1]) == Some(d);
      MoveWordsConverse(l, d);
    }
  }

  /** A string that begins with the space-free word `w` and then nothing or a space has `w` as its first piece. */
  lemma LeadsFirstWord(l: string, w: string)
    requires ' ' !in w && Leads(l, w)
    ensures Split(l)[0] == w
  {
    var rest := l[|w|..];
    assert l == w + rest;
    SplitGlue(w, rest);
    assert Split(rest)[0] == "" by {
      if rest != [] {
        assert rest[0] == ' ';
      }
    }
    assert w + "" == w;
  }

  /** A string whose first piece is `w` begins with `w` and then nothing or a space. */
  lemma FirstWordLeads(l: string, w: string)
    requires Split(l)[0] == w
    ensures Leads(l, w)
  {
    var c := Split(l);
    JoinSplit(l);
    if |c| > 1 {
      assert l == w + (" " + Join(c[1..]));
    } else {
      assert l == w;
    }
  }

  /** The first piece of `l` is the space-free word `w` exactly when `l` begins with `w` and then nothing or a space. */
  lemma FirstWord(l: string, w: string)
    requires ' ' !in w
    ensures Split(l)[0] == w <==> Leads(l, w)
  {
    if Leads(l, w) {
      LeadsFirstWord(l, w);
    }
    if Split(l)[0] == w {
      FirstWordLeads(l, w);
    }
  }

  /**
   * A command is a move (with or without a known direction) exactly when,
   * lower-cased, it reads `move` followed by nothing or by a space; it waits
   * exactly when it so reads `wait`, and places a bomb exactly when it so
   * reads `bomb` or `place`.
   */
  lemma ParseKeywords(action: string)
    ensures ParseAction(action).Move? <==> Leads(ToLower(action), "move")
    ensures ParseAction(action) == Wait <==> Leads(ToLower(action), "wait")
    ensures ParseAction(action) == PlaceBomb <==>
      Leads(ToLower(action), "bomb") || Leads(ToLower(action), "place")
  {
    var l := ToLower(action);
    assert ' ' !in "move" && ' ' !in "wait" && ' ' !in "bomb" && ' ' !in "place";
    FirstWord(l, "move");
    FirstWord(l, "wait");
    FirstWord(l, "bomb");
    FirstWord(l, "place");
  }

  /** What the session applies to typed text before acting on it: trimmed, then lower-cased. */
  function Normalize(action: string): string {
    ToLower(Trim(action))
  }
}

=== FILE: engine.dfy ===
/**
 * One turn of the game: the player's action, the bomb timers, the
 * detonations, the enemy steps, and the collision and status checks, in that
 * order. Each phase is specified by a function, the turn by their
 * composition `Turn`, and `ProcessTurn` computes it step by step on a copy of
 * the state.
 */
module Engine {
  import opened Types
  import opened Grid
  import opened Seqs
  import opened Command
  import opened Blast

  datatype TurnResult = TurnResult(state: GameState, events: seq<Event>)

  // ----- predicates the phases filter by -----

  function BombAt(p: Coords): Bomb -> bool {
    (b: Bomb) => b.x == p.x && b.y == p.y
  }

  function Spent(b: Bomb): bool { b.timer == 0 }

  function Ticking(b: Bomb): bool { b.timer > 0 }

  function EnemyAt(p: Coords): Enemy -> bool {
    (e: Enemy) => e.x == p.x && e.y == p.y
  }

  function EnemyNotAt(p: Coords): Enemy -> bool {
    (e: Enemy) => !(e.x == p.x && e.y == p.y)
  }

  function ItemAt(p: Coords): Item -> bool {
    (it: Item) => it.x == p.x && it.y == p.y
  }

  function ItemNotAt(p: Coords): Item -> bool {
    (it: Item) => !(it.x == p.x && it.y == p.y)
  }

  function KindAt(p: Coords, kind: ItemType): Item -> bool {
    (it: Item) => it.x == p.x && it.y == p.y && it.kind == kind
  }

  // ----- 1. the player's action -----

  /** The player steps onto the neighbouring tile in direction `d` if it is empty or the goal. */
  function TryMove(s: GameState, d: Dir): GameState {
    var target := Tile(s.player, d, 1);
    var cell := Cell(s.grid, target);
    if cell == Some(EMPTY) || cell == Some(GOAL) then s.(player := target) else s
  }

  function PlayerAction(s: GameState, action: string): TurnResult {
    match ParseAction(action)
    case Move(d) => TurnResult(if d.Some? then TryMove(s, d.value) else s, [])
    case PlaceBomb =>
      if |Filter(s.bombs, BombAt(s.player))| == 0 then
        if |s.bombs| < s.playerStats.maxBombs
        then TurnResult(s.(bombs := s.bombs + [Bomb(s.player.x, s.player.y, BOMB_TIMER)]), [])
        else TurnResult(s, [CannotPlaceBomb])
      else TurnResult(s, [])
    case Wait => TurnResult(s, [])
    case Unknown => TurnResult(s, [UnknownCommand(action)])
  }

  // ----- 2. bomb timers -----

  function Ticked(bombs: seq<Bomb>): seq<Bomb> {
    seq(|bombs|, i requires 0 <= i < |bombs| => bombs[i].(timer := bombs[i].timer - 1))
  }

  /** Every bomb's timer goes down by one. */
  method TickTimers(bombs: seq<Bomb>) returns (r: seq<Bomb>)
    ensures |r| == |bombs|
    ensures forall i :: 0 <= i < |bombs| ==> r[i] == Bomb(bombs[i].x, bombs[i].y, bombs[i].timer - 1)
  {
    r := [];
    for i := 0 to |bombs|
      invariant |r| == i
      invariant forall k :: 0 <= k < i ==> r[k] == Bomb(bombs[k].x, bombs[k].y, bombs[k].timer - 1)
    {
      var bomb := bombs[i];
      r := r + [bomb.(timer := bomb.timer - 1)];
    }
  }

  // ----- 3. detonations -----

  /**
   * The bombs whose timer is zero go off over the grid; the explosion list is
   * replaced by the tiles they mark, and every bomb whose timer is not
   * positive is removed.
   */
  function DetonationPhase(s: GameState, drop: nat -> Option<ItemType>): TurnResult {
    var r := DetonateAll(Blast(s.grid, s.isGoalVisible, s.items, [], [], 0), s.goal,
                         Filter(s.bombs, Spent), s.playerStats.firePower, drop);
    TurnResult(
      s.(grid := r.grid, isGoalVisible := r.isGoalVisible, items := r.items, explosions := r.explosions,
         bombs := Filter(s.bombs, Ticking)),
      r.events)
  }

  // ----- 4. enemy steps -----

  function OpenFor(grid: GameMap, e: Enemy): Dir -> bool {
    (d: Dir) => Cell(grid, Tile(Coords(e.x, e.y), d, 1)) == Some(EMPTY)
  }

  /** The directions in which the neighbouring tile is empty, in scan order. */
  function OpenMoves(grid: GameMap, e: Enemy): seq<Dir> {
    Filter(SCAN_ORDER, OpenFor(grid, e))
  }

  /** The enemy takes the `pick`-th open step (modulo their number), or stays if there is none. */
  function StepEnemy(grid: GameMap, e: Enemy, pick: nat): Enemy {
    var moves := OpenMoves(grid, e);
    if |moves| > 0 then
      var target := Tile(Coords(e.x, e.y), moves[pick % |moves|], 1);
      e.(x := target.x, y := target.y)
    else e
  }

  function MovedEnemies(grid: GameMap, enemies: seq<Enemy>, step: nat -> nat): seq<Enemy> {
    seq(|enemies|, i requires 0 <= i < |enemies| => StepEnemy(grid, enemies[i], step(i)))
  }

  /** Each enemy in turn takes the step the oracle picks for it. */
  method MoveEnemies(grid: GameMap, enemies: seq<Enemy>, step: nat -> nat) returns (r: seq<Enemy>)
    ensures |r| == |enemies|
    ensures forall i :: 0 <= i < |enemies| ==> r[i] == StepEnemy(grid, enemies[i], step(i))
  {
    r := [];
    for i := 0 to |enemies|
      invariant |r| == i
      invariant forall k :: 0 <= k < i ==> r[k] == StepEnemy(grid, enemies[k], step(k))
    {
      var enemy := MoveEnemy(grid, enemies[i], step(i));
      r := r + [enemy];
    }
  }

  /** One enemy looks for the empty neighbouring tiles and takes the one the oracle picks. */
  method MoveEnemy(grid: GameMap, enemy: Enemy, pick: nat) returns (moved: Enemy)
    ensures moved == StepEnemy(grid, enemy, pick)
  {
    moved := enemy;
    var validMoves: seq<Dir> := [];
    for k := 0 to |SCAN_ORDER|
      invariant validMoves == Filter(SCAN_ORDER[..k], OpenFor(grid, enemy))
    {
      FilterExtend(SCAN_ORDER, k, OpenFor(grid, enemy));
      var dir := SCAN_ORDER[k];
      var next := Tile(Coords(enemy.x, enemy.y), dir, 1);
      if Cell(grid, next) == Some(EMPTY) {
        validMoves := validMoves + [dir];
      }
    }
    assert SCAN_ORDER[..|SCAN_ORDER|] == SCAN_ORDER;
    if |validMoves| > 0 {
      var move := validMoves[pick % |validMoves|];
      var target := Tile(Coords(enemy.x, enemy.y), move, 1);
      moved := enemy.(x := target.x, y := target.y);
    }
  }

  // ----- 5. collisions, pickups and the win check -----

  datatype Sweep = Sweep(enemies: seq<Enemy>, status: GameStatus, events: seq<Event>)

  /**
   * One explosion tile: on the player's tile it loses the game, and the
   * enemies on it are removed.
   */
  function HitTile(exp: Coords, player: Coords, enemies: seq<Enemy>, status: GameStatus): Sweep {
    var hit := exp.x == player.x && exp.y == player.y;
    var survivors := Filter(enemies, EnemyNotAt(exp));
    Sweep(survivors, if hit then Lose else status,
          (if hit then [CaughtInExplosion] else []) + Repeat(EnemyDefeated, |enemies| - |survivors|))
  }

  /** The explosion tiles in order, each as `HitTile` says. */
  function SweepExplosions(explosions: seq<Coords>, player: Coords, enemies: seq<Enemy>,
                           status: GameStatus): Sweep
    decreases |explosions|
  {
    if explosions == [] then Sweep(enemies, status, [])
    else
      var one := HitTile(explosions[0], player, enemies, status);
      var rest := SweepExplosions(explosions[1..], player, one.enemies, one.status);
      Sweep(rest.enemies, rest.status, one.events + rest.events)
  }

  /** The sweep from explosion `k` on is tile `k`, then the sweep from `k + 1` on. */
  lemma SweepStep(explosions: seq<Coords>, k: int, player: Coords, enemies: seq<Enemy>, status: GameStatus)
    requires 0 <= k < |explosions|
    ensures var one := HitTile(explosions[k], player, enemies, status);
      var rest := SweepExplosions(explosions[k + 1..], player, one.enemies, one.status);
      SweepExplosions(explosions[k..], player, enemies, status) == Sweep(rest.enemies, rest.status, one.events + rest.events)
  {
    assert explosions[k..][1..] == explosions[k + 1..];
  }

  /** The message for each item picked up. */
  function PowerUps(picked: seq<Item>): seq<Event> {
    seq(|picked|, i requires 0 <= i < |picked| => PoweredUp(picked[i].kind))
  }

  /** Each item on `p` raises its own stat by one. */
  function Boosted(stats: PlayerStats, items: seq<Item>, p: Coords): PlayerStats {
    PlayerStats(stats.firePower + |Filter(items, KindAt(p, FireUp))|,
                stats.maxBombs + |Filter(items, KindAt(p, BombUp))|)
  }

  function CollisionPhase(s: GameState): TurnResult {
    var p := s.player;
    var sweep := SweepExplosions(s.explosions, p, s.enemies, s.gameStatus);
    var touching := Filter(sweep.enemies, EnemyAt(p));
    var contacted := if |touching| > 0 then Lose else sweep.status;
    var won := s.isGoalVisible && p.x == s.goal.x && p.y == s.goal.y;
    TurnResult(
      s.(enemies := sweep.enemies,
         items := Filter(s.items, ItemNotAt(p)),
         playerStats := Boosted(s.playerStats, s.items, p),
         gameStatus := if won then Win else contacted),
      sweep.events + Repeat(RanIntoEnemy, |touching|) + PowerUps(Filter(s.items, ItemAt(p))) +
      (if won then [Escaped] else []))
  }

  // ----- the whole turn -----

  /** One turn: nothing unless the game is being played, else the five phases and the turn count. */
  function Turn(s: GameState, action: string, oracle: Oracle): TurnResult {
    if s.gameStatus != Playing then TurnResult(s, [])
    else
      var acted := PlayerAction(s, action);
      var ticked := acted.state.(bombs := Ticked(acted.state.bombs));
      var blasted := DetonationPhase(ticked, oracle.drop);
      var moved := blasted.state.(enemies := MovedEnemies(blasted.state.grid, blasted.state.enemies, oracle.step));
      var resolved := CollisionPhase(moved);
      TurnResult(resolved.state.(turn := resolved.state.turn + 1),
                 acted.events + blasted.events + resolved.events)
  }

  /** The explosion tiles one after the other, each removing the enemies on it. */
  method ExplosionSweep(explosions: seq<Coords>, player: Coords, enemies: seq<Enemy>, status: GameStatus)
    returns (survivors: seq<Enemy>, newStatus: GameStatus, events: seq<Event>)
    ensures Sweep(survivors, newStatus, events) == SweepExplosions(explosions, player, enemies, status)
  {
    survivors, newStatus, events := enemies, status, [];
    ghost var total := SweepExplosions(explosions, player, enemies, status);
    for k := 0 to |explosions|
      invariant SweepExplosions(explosions[k..], player, survivors, newStatus).enemies == total.enemies
      invariant SweepExplosions(explosions[k..], player, survivors, newStatus).status == total.status
      invariant events + SweepExplosions(explosions[k..], player, survivors, newStatus).events == total.events
    {
      SweepStep(explosions, k, player, survivors, newStatus);
      var tileEvents;
      survivors, newStatus, tileEvents := ExplodeTile(explosions[k], player, survivors, newStatus);
      events := events + tileEvents;
    }
  }

  /** One explosion tile, as `HitTile` says. */
  method ExplodeTile(exp: Coords, player: Coords, enemies: seq<Enemy>, status: GameStatus)
    returns (survivors: seq<Enemy>, newStatus: GameStatus, events: seq<Event>)
    ensures Sweep(survivors, newStatus, events) == HitTile(exp, player, enemies, status)
  {
    newStatus, events := status, [];
    if exp.x == player.x && exp.y == player.y {
      newStatus := Lose;
      events := events + [CaughtInExplosion];
    }
    var defeated;
    survivors, defeated := RemoveEnemiesAt(enemies, exp);
    events := events + defeated;
  }

  /** The enemies on `exp` are removed, each with a message. */
  method RemoveEnemiesAt(enemies: seq<Enemy>, exp: Coords) returns (survivors: seq<Enemy>, events: seq<Event>)
    ensures survivors == Filter(enemies, EnemyNotAt(exp))
    ensures events == Repeat(EnemyDefeated, |enemies| - |survivors|)
  {
    survivors, events := [], [];
    for i := 0 to |enemies|
      invariant survivors == Filter(enemies[..i], EnemyNotAt(exp))
      invariant events == Repeat(EnemyDefeated, i - |survivors|)
    {
      FilterExtend(enemies, i, EnemyNotAt(exp));
      var enemy := enemies[i];
      if enemy.x == exp.x && enemy.y == exp.y {
        events := events + [EnemyDefeated];
      } else {
        survivors := survivors + [enemy];
      }
    }
    assert enemies[..|enemies|] == enemies;
  }

  /** Every enemy on the player's tile loses the game, each with a message. */
  method EnemyContact(enemies: seq<Enemy>, player: Coords, status: GameStatus)
    returns (newStatus: GameStatus, events: seq<Event>)
    ensures newStatus == if |Filter(enemies, EnemyAt(player))| > 0 then Lose else status
    ensures events == Repeat(RanIntoEnemy, |Filter(enemies, EnemyAt(player))|)
  {
    newStatus, events := status, [];
    for i := 0 to |enemies|
      invariant newStatus == if |Filter(enemies[..i], EnemyAt(player))| > 0 then Lose else status
      invariant events == Repeat(RanIntoEnemy, |Filter(enemies[..i], EnemyAt(player))|)
    {
      FilterExtend(enemies, i, EnemyAt(player));
      var enemy := enemies[i];
      if enemy.x == player.x && enemy.y == player.y {
        newStatus := Lose;
        events := events + [RanIntoEnemy];
      }
    }
    assert enemies[..|enemies|] == enemies;
  }

  lemma PowerUpsAppend(picked: seq<Item>, it: Item)
    ensures PowerUps(picked + [it]) == PowerUps(picked) + [PoweredUp(it.kind)]
  {
  }

  /** What one more item does to the kept items, the stats and the messages of a pickup. */
  lemma PickupStep(items: seq<Item>, i: int, p: Coords, stats: PlayerStats)
    requires 0 <= i < |items|
    ensures var it := items[i];
      var here := it.x == p.x && it.y == p.y;
      var before := Boosted(stats, items[..i], p);
      Filter(items[..i + 1], ItemNotAt(p)) == Filter(items[..i], ItemNotAt(p)) + (if here then [] else [it]) &&
      Boosted(stats, items[..i + 1], p) ==
        (if here && it.kind == FireUp then before.(firePower := before.firePower + 1)
         else if here && it.kind == BombUp then before.(maxBombs := before.maxBombs + 1)
         else before) &&
      PowerUps(Filter(items[..i + 1], ItemAt(p))) ==
        PowerUps(Filter(items[..i], ItemAt(p))) + (if here then [PoweredUp(it.kind)] else [])
  {
    FilterExtend(items, i, ItemNotAt(p));
    FilterExtend(items, i, ItemAt(p));
    FilterExtend(items, i, KindAt(p, FireUp));
    FilterExtend(items, i, KindAt(p, BombUp));
    if items[i].x == p.x && items[i].y == p.y {
      PowerUpsAppend(Filter(items[..i], ItemAt(p)), items[i]);
    }
  }

  /** Every item on the player's tile is removed and raises its stat. */
  method PickUpItems(items: seq<Item>, player: Coords, stats: PlayerStats)
    returns (kept: seq<Item>, newStats: PlayerStats, events: seq<Event>)
    ensures kept == Filter(items, ItemNotAt(player))
    ensures newStats == Boosted(stats, items, player)
    ensures events == PowerUps(Filter(items, ItemAt(player)))
  {
    kept, newStats, events := [], stats, [];
    for i := 0 to |items|
      invariant kept == Filter(items[..i], ItemNotAt(player))
      invariant newStats == Boosted(stats, items[..i], player)
      invariant events == PowerUps(Filter(items[..i], ItemAt(player)))
    {
      PickupStep(items, i, player, stats);
      var item := items[i];
      if item.x == player.x && item.y == player.y {
        if item.kind == FireUp {
          newStats := newStats.(firePower := newStats.firePower + 1);
          events := events + [PoweredUp(FireUp)];
        } else if item.kind == BombUp {
          newStats := newStats.(maxBombs := newStats.maxBombs + 1);
          events := events + [PoweredUp(BombUp)];
        }
      } else {
        kept := kept + [item];
      }
    }
    assert items[..|items|] == items;
  }

  /** The player's action, as `PlayerAction` says. */
  method ApplyAction(s: GameState, action: string) returns (st: GameState, events: seq<Event>)
    ensures TurnResult(st, events) == PlayerAction(s, action)
  {
    st, events := s, [];
    match ParseAction(action) {
      case Move(d) =>
        if d.Some? {
          var target := Tile(st.player, d.value, 1);
          var cell := Cell(st.grid, target);
          if cell == Some(EMPTY) || cell == Some(GOAL) {
            st := st.(player := target);
          }
        }
      case PlaceBomb =>
        if |Filter(st.bombs, BombAt(st.player))| == 0 {
          if |st.bombs| < st.playerStats.maxBombs {
            st := st.(bombs := st.bombs + [Bomb(st.player.x, st.player.y, BOMB_TIMER)]);
          } else {
            events := events + [CannotPlaceBomb];
          }
        }
      case Wait =>
      case Unknown =>
        events := events + [UnknownCommand(action)];
    }
  }

  /** The detonations, as `DetonationPhase` says. */
  method DetonateBombs(s: GameState, drop: nat -> Option<ItemType>) returns (st: GameState, events: seq<Event>)
    ensures TurnResult(st, events) == DetonationPhase(s, drop)
  {
    var exploding := Filter(s.bombs, Spent);
    var blast := Detonations(Blast(s.grid, s.isGoalVisible, s.items, [], [], 0), s.goal,
                             exploding, s.playerStats.firePower, drop);
    st := s.(grid := blast.grid, isGoalVisible := blast.isGoalVisible, items := blast.items,
             explosions := blast.explosions, bombs := Filter(s.bombs, Ticking));
    events := blast.events;
  }

  /** Collisions, pickups and the win check, as `CollisionPhase` says. */
  method Resolve(s: GameState) returns (st: GameState, events: seq<Event>)
    ensures TurnResult(st, events) == CollisionPhase(s)
  {
    st := s;
    var survivors, status, sweepEvents := ExplosionSweep(st.explosions, st.player, st.enemies, st.gameStatus);
    st := st.(enemies := survivors, gameStatus := status);
    var contactEvents;
    status, contactEvents := EnemyContact(st.enemies, st.player, st.gameStatus);
    st := st.(gameStatus := status);
    var kept, stats, pickupEvents := PickUpItems(st.items, st.player, st.playerStats);
    st := st.(items := kept, playerStats := stats);
    events := sweepEvents + contactEvents + pickupEvents;
    if st.isGoalVisible && st.player.x == st.goal.x && st.player.y == st.goal.y {
      st := st.(gameStatus := Win);
      events := events + [Escaped];
    }
  }

  /**
   * The turn as the game runs it, on a copy of the state it is given: the
   * result and the messages are those of `Turn`.
   */
  method ProcessTurn(s: GameState, action: string, oracle: Oracle) returns (next: GameState, events: seq<Event>)
    ensures TurnResult(next, events) == Turn(s, action, oracle)
  {
    if s.gameStatus != Playing {
      return s, [];
    }
    var st, actionEvents := ApplyAction(s, action);
    var ticked := TickTimers(st.bombs);
    assert ticked == Ticked(st.bombs);
    st := st.(bombs := ticked);
    var blastEvents;
    st, blastEvents := DetonateBombs(st, oracle.drop);
    var moved := MoveEnemies(st.grid, st.enemies, oracle.step);
    assert moved == MovedEnemies(st.grid, st.enemies, oracle.step);
    st := st.(enemies := moved);
    var resolveEvents;
    st, resolveEvents := Resolve(st);
    next := st.(turn := st.turn + 1);
    events := actionEvents + blastEvents + resolveEvents;
  }
}

=== FILE: grid.dfy ===
/**
 * The grid: reading a cell with the permissive "off the grid is no cell"
 * rule, writing a cell, the four axis directions, and the relation between
 * a grid and the grid a detonation can leave behind.
 */
module Grid {
  import opened Types

  predicate InGrid(grid: GameMap, x: int, y: int) {
    0 <= y < |grid| && 0 <= x < |grid[y]|
  }

  /** The tag at `c`, or None off the grid (the game's `map[y]?.[x]`). */
  function Cell(grid: GameMap, c: Coords): Option<char> {
    if InGrid(grid, c.x, c.y) then Some(grid[c.y][c.x]) else None
  }

  function SetCell(grid: GameMap, c: Coords, tag: char): (r: GameMap)
    requires InGrid(grid, c.x, c.y)
    ensures SameShape(grid, r)
    ensures forall y, x :: InGrid(grid, x, y) ==>
      r[y][x] == if x == c.x && y == c.y then tag else grid[y][x]
  {
    grid[c.y := grid[c.y][c.x := tag]]
  }

  /** Same number of rows, and each row the same length. */
  predicate SameShape(m0: GameMap, m1: GameMap) {
    |m0| == |m1| && forall y :: 0 <= y < |m0| ==> |m0[y]| == |m1[y]|
  }

  datatype Dir = Down | Up | Right | Left

  /** The order in which both the blast and the enemy step scan directions. */
  const SCAN_ORDER: seq<Dir> := [Down, Up, Right, Left]

  /** The tile `i` steps from `origin` in direction `d` (y grows downwards). */
  function Tile(origin: Coords, d: Dir, i: int): Coords {
    match d
    case Down => Coords(origin.x, origin.y + i)
    case Up => Coords(origin.x, origin.y - i)
    case Right => Coords(origin.x + i, origin.y)
    case Left => Coords(origin.x - i, origin.y)
  }

  /** `a` and `b` are one orthogonal step apart. */
  predicate Adjacent(a: Coords, b: Coords) {
    (a.x == b.x && (a.y - b.y == 1 || b.y - a.y == 1)) ||
    (a.y == b.y && (a.x - b.x == 1 || b.x - a.x == 1))
  }

  lemma NeighbourIsAdjacent(c: Coords, d: Dir)
    ensures Adjacent(c, Tile(c, d, 1)) && Tile(c, d, 1) != c
  {
  }

  /** What a blast does to a cell: a breakable block becomes the goal on the goal tile, empty elsewhere. */
  function Debris(c: Coords, goal: Coords): char {
    if c == goal then GOAL else EMPTY
  }

  /**
   * `m1` is `m0` with some breakable blocks destroyed and nothing else
   * changed.
   */
  ghost predicate OnlyBlocksBroken(m0: GameMap, m1: GameMap, goal: Coords) {
    SameShape(m0, m1) &&
    forall y, x :: InGrid(m0, x, y) ==>
      m1[y][x] == m0[y][x] || (m0[y][x] == BREAKABLE_BLOCK && m1[y][x] == Debris(Coords(x, y), goal))
  }

  lemma OnlyBlocksBrokenReflexive(m: GameMap, goal: Coords)
    ensures OnlyBlocksBroken(m, m, goal)
  {
  }

  /** A destroyed block is never a block again, so two rounds of destruction compose into one. */
  lemma OnlyBlocksBrokenTransitive(m0: GameMap, m1: GameMap, m2: GameMap, goal: Coords)
    requires OnlyBlocksBroken(m0, m1, goal) && OnlyBlocksBroken(m1, m2, goal)
    ensures OnlyBlocksBroken(m0, m2, goal)
  {
    forall y, x | InGrid(m0, x, y)
      ensures m2[y][x] == m0[y][x] ||
              (m0[y][x] == BREAKABLE_BLOCK && m2[y][x] == Debris(Coords(x, y), goal))
    {
      assert InGrid(m1, x, y);
    }
  }

  /** Destroying one breakable block is such a change. */
  lemma BreakOneBlock(m: GameMap, c: Coords, goal: Coords)
    requires Cell(m, c) == Some(BREAKABLE_BLOCK)
    ensures OnlyBlocksBroken(m, SetCell(m, c, Debris(c, goal)), goal)
  {
  }
}

=== FILE: seqs.dfy ===
/**
 * Sequence helpers for the order-preserving filters the engine applies to
 * its entity lists (bombs, enemies, items).
 */
module Seqs {

  /** The elements of `s` that `keep` accepts, in their original order. */
  function Filter<T>(s: seq<T>, keep: T -> bool): (r: seq<T>)
    ensures |r| <= |s|
    decreases |s|
  {
    if s == [] then []
    else Filter(s[..|s| - 1], keep) + (if keep(s[|s| - 1]) then [s[|s| - 1]] else [])
  }

  /** `n` copies of `x`. */
  function Repeat<T>(x: T, n: nat): (r: seq<T>)
    ensures |r| == n && forall i :: 0 <= i < n ==> r[i] == x
  {
    seq(n, _ => x)
  }

  /** Filtering the first `i + 1` elements extends the filter of the first `i`. */
  lemma FilterExtend<T>(s: seq<T>, i: int, keep: T -> bool)
    requires 0 <= i < |s|
    ensures Filter(s[..i + 1], keep) == Filter(s[..i], keep) + (if keep(s[i]) then [s[i]] else [])
  {
    assert s[..i + 1][..i] == s[..i];
  }

  /** An element survives the filter exactly when it occurs in the input and is accepted. */
  lemma {:induction false} FilterMembership<T>(s: seq<T>, keep: T -> bool)
    ensures forall x :: x in Filter(s, keep) <==> x in s && keep(x)
    decreases |s|
  {
    if s != [] {
      var init := s[..|s| - 1];
      FilterMembership(init, keep);
      assert s == init + [s[|s| - 1]];
    }
  }

  /** Filtering distributes over concatenation. */
  lemma {:induction false} FilterAppend<T>(s: seq<T>, t: seq<T>, keep: T -> bool)
    ensures Filter(s + t, keep) == Filter(s, keep) + Filter(t, keep)
    decreases |t|
  {
    if t == [] {
      assert s + t == s;
    } else {
      var init := t[..|t| - 1];
      FilterAppend(s, init, keep);
      assert (s + t)[..|s + t| - 1] == s + init;
    }
  }

  /** A filter that accepts everything in `s` returns `s`; one that accepts nothing returns []. */
  lemma {:induction false} FilterAllOrNothing<T>(s: seq<T>, keep: T -> bool)
    ensures (forall i :: 0 <= i < |s| ==> keep(s[i])) ==> Filter(s, keep) == s
    ensures (forall i :: 0 <= i < |s| ==> !keep(s[i])) ==> Filter(s, keep) == []
    decreases |s|
  {
    if s != [] {
      var init := s[..|s| - 1];
      FilterAllOrNothing(init, keep);
      assert s == init + [s[|s| - 1]];
    }
  }
}

=== FILE: session.dfy ===
/**
 * The game session around the turn engine: the typed command is trimmed
 * and lower-cased, `start` begins a game from the start screen, any command
 * during play is a turn, and `restart` outside of play builds a new game
 * from the initial layout.
 */
module Session {
  import opened Types
  import opened Command
  import opened Setup
  import opened Engine
  import opened TurnFacts

  /** The game state a session begins with: the initial layout on the start screen. */
  method InitialGame() returns (s: GameState)
    ensures s.gameStatus == StartScreen
    ensures IsNewGame(s, INITIAL_MAP_LAYOUT)
  {
    var parsed := ParseInitialMap(INITIAL_MAP_LAYOUT);
    s := NewGame(parsed, StartScreen);
  }

  /** `s` is a fresh game read from `layout`: stats of one, turn 0, the goal hidden, no explosions. */
  ghost predicate IsNewGame(s: GameState, layout: seq<string>) {
    Parses(layout, ParsedMap(s.grid, s.player, s.enemies, s.bombs, s.items, s.goal)) &&
    s.explosions == [] && s.playerStats == PlayerStats(1, 1) && s.turn == 0 && !s.isGoalVisible
  }

  /**
   * One typed command. `start` on the start screen begins play; during play
   * every command, `start` and `restart` included, is a turn; `restart` in a
   * finished game starts a new one; anything else does nothing.
   */
  method HandleAction(s: GameState, action: string, oracle: Oracle) returns (next: GameState, events: seq<Event>)
    ensures var command := Normalize(action);
      if command == "start" && s.gameStatus == StartScreen then
        next == s.(gameStatus := Playing) && events == [GameStarted]
      else if s.gameStatus == Playing then
        TurnResult(next, events) == Turn(s, command, oracle)
      else if command == "restart" then
        IsNewGame(next, INITIAL_MAP_LAYOUT) && next.gameStatus == Playing && events == [GameRestarted]
      else
        next == s && events == []
  {
    var command := Normalize(action);
    if command == "start" && s.gameStatus == StartScreen {
      next, events := s.(gameStatus := Playing), [GameStarted];
    } else if s.gameStatus == Playing {
      next, events := ProcessTurn(s, command, oracle);
    } else if command == "restart" {
      var parsed := ParseInitialMap(INITIAL_MAP_LAYOUT);
      next, events := NewGame(parsed, Playing), [GameRestarted];
    } else {
      next, events := s, [];
    }
  }

  /** Every fresh game read from the same layout, with the same status, is the same state. */
  lemma NewGamesAgree(s1: GameState, s2: GameState, layout: seq<string>)
    requires IsNewGame(s1, layout) && IsNewGame(s2, layout) && s1.gameStatus == s2.gameStatus
    ensures s1 == s2
  {
    ParsesUnique(layout, ParsedMap(s1.grid, s1.player, s1.enemies, s1.bombs, s1.items, s1.goal),
                 ParsedMap(s2.grid, s2.player, s2.enemies, s2.bombs, s2.items, s2.goal));
  }

  /**
   * A fresh game read from the initial layout starts with the player inside
   * the walls and the bombs in order, so every turn keeps them so
   * (`TurnKeepsPlayerInside`, `TurnKeepsBombsInOrder`).
   */
  lemma NewGameInvariants(s: GameState)
    requires IsNewGame(s, INITIAL_MAP_LAYOUT)
    ensures PlayerInside(s) && BombsInOrder(s)
  {
    var p := ParsedMap(s.grid, s.player, s.enemies, s.bombs, s.items, s.goal);
    InitialLayout(p);
    InitialCells(1, 2);
    assert s.grid[1][2] == Hide(INITIAL_MAP_LAYOUT[1][2]);
  }
}

=== FILE: setup.dfy ===
/**
 * Building a game from a text layout: the grid with the player and enemy
 * markers cleared and the goal hidden under a breakable block, the player's
 * and the goal's positions, and the enemies with their ids in row-major
 * order; and the fresh game state around them.
 */
module Setup {
  import opened Types
  import opened Grid

  /** What a layout is read into; bombs and items always start empty. */
  datatype ParsedMap = ParsedMap(
    grid: GameMap, player: Coords, enemies: seq<Enemy>, bombs: seq<Bomb>, items: seq<Item>, goal: Coords)

  /** The grid cell a layout character becomes: player and enemy leave empty floor, the goal a block. */
  function Hide(c: char): char {
    if c == PLAYER || c == ENEMY then EMPTY
    else if c == GOAL then BREAKABLE_BLOCK
    else c
  }

  predicate TagAt(layout: seq<string>, x: int, y: int, tag: char) {
    0 <= y < |layout| && 0 <= x < |layout[y]| && layout[y][x] == tag
  }

  /** `a` comes before `b` in row-major order. */
  predicate Before(a: Coords, b: Coords) {
    a.y < b.y || (a.y == b.y && a.x < b.x)
  }

  /** `c` is the last `tag` cell before `end` in row-major order, or (0, 0) if there is none. */
  ghost predicate LastBefore(layout: seq<string>, tag: char, c: Coords, end: Coords) {
    if exists y, x {:trigger TagAt(layout, x, y, tag)} :: TagAt(layout, x, y, tag) && Before(Coords(x, y), end)
    then TagAt(layout, c.x, c.y, tag) && Before(c, end) &&
      forall y, x {:trigger TagAt(layout, x, y, tag)} ::
        TagAt(layout, x, y, tag) && Before(Coords(x, y), end) ==> !Before(c, Coords(x, y))
    else c == Coords(0, 0)
  }

  /**
   * `enemies` lists the enemy cells before `end`, each once, in row-major
   * order, numbered from 0.
   */
  ghost predicate RosterBefore(layout: seq<string>, enemies: seq<Enemy>, end: Coords) {
    (forall i :: 0 <= i < |enemies| ==>
      enemies[i].id == i && TagAt(layout, enemies[i].x, enemies[i].y, ENEMY) &&
      Before(Coords(enemies[i].x, enemies[i].y), end)) &&
    (forall i, j :: 0 <= i < j < |enemies| ==>
      Before(Coords(enemies[i].x, enemies[i].y), Coords(enemies[j].x, enemies[j].y))) &&
    (forall y, x {:trigger TagAt(layout, x, y, ENEMY)} :: TagAt(layout, x, y, ENEMY) && Before(Coords(x, y), end) ==>
      exists i :: 0 <= i < |enemies| && enemies[i].x == x && enemies[i].y == y)
  }

  /** Every cell of the layout comes before this position. */
  function Past(layout: seq<string>): Coords {
    Coords(0, |layout|)
  }

  /**
   * `p` is what reading `layout` yields: the hidden grid, the last player
   * and goal cells (or (0, 0)), every enemy cell in row-major order, and no
   * bombs or items.
   */
  ghost predicate Parses(layout: seq<string>, p: ParsedMap) {
    |p.grid| == |layout| &&
    (forall y :: 0 <= y < |layout| ==> |p.grid[y]| == |layout[y]|) &&
    (forall y, x :: 0 <= y < |layout| && 0 <= x < |layout[y]| ==> p.grid[y][x] == Hide(layout[y][x])) &&
    LastBefore(layout, PLAYER, p.player, Past(layout)) &&
    LastBefore(layout, GOAL, p.goal, Past(layout)) &&
    RosterBefore(layout, p.enemies, Past(layout)) &&
    p.bombs == [] && p.items == []
  }

  lemma LastStep(layout: seq<string>, tag: char, c: Coords, x: int, y: int)
    requires 0 <= y < |layout| && 0 <= x < |layout[y]|
    requires LastBefore(layout, tag, c, Coords(x, y))
    ensures LastBefore(layout, tag, if layout[y][x] == tag then Coords(x, y) else c, Coords(x + 1, y))
  {
    if layout[y][x] == tag {
      assert TagAt(layout, x, y, tag);
    } else {
      forall y', x' | TagAt(layout, x', y', tag) && Before(Coords(x', y'), Coords(x + 1, y))
        ensures Before(Coords(x', y'), Coords(x, y))
      {
      }
      if exists y', x' {:trigger TagAt(layout, x', y', tag)} ::
           TagAt(layout, x', y', tag) && Before(Coords(x', y'), Coords(x + 1, y)) {
        var y', x' :| TagAt(layout, x', y', tag) && Before(Coords(x', y'), Coords(x + 1, y));
        assert Before(Coords(x', y'), Coords(x, y));
      }
    }
  }

  lemma LastRow(layout: seq<string>, tag: char, c: Coords, y: int)
    requires 0 <= y < |layout|
    requires LastBefore(layout, tag, c, Coords(|layout[y]|, y))
    ensures LastBefore(layout, tag, c, Coords(0, y + 1))
  {
    forall y', x' | TagAt(layout, x', y', tag) && Before(Coords(x', y'), Coords(0, y + 1))
      ensures Before(Coords(x', y'), Coords(|layout[y]|, y))
    {
    }
  }

  lemma RosterSkip(layout: seq<string>, enemies: seq<Enemy>, x: int, y: int)
    requires 0 <= y < |layout| && 0 <= x < |layout[y]| && layout[y][x] != ENEMY
    requires RosterBefore(layout, enemies, Coords(x, y))
    ensures RosterBefore(layout, enemies, Coords(x + 1, y))
  {
    forall y', x' | TagAt(layout, x', y', ENEMY) && Before(Coords(x', y'), Coords(x + 1, y))
      ensures Before(Coords(x', y'), Coords(x, y))
    {
    }
  }

  lemma RosterAdd(layout: seq<string>, enemies: seq<Enemy>, x: int, y: int)
    requires 0 <= y < |layout| && 0 <= x < |layout[y]| && layout[y][x] == ENEMY
    requires RosterBefore(layout, enemies, Coords(x, y))
    ensures RosterBefore(layout, enemies + [Enemy(|enemies|, x, y)], Coords(x + 1, y))
  {
    var next := enemies + [Enemy(|enemies|, x, y)];
    assert forall i :: 0 <= i < |enemies| ==> next[i] == enemies[i];
    forall i, j | 0 <= i < j < |next|
      ensures Before(Coords(next[i].x, next[i].y), Coords(next[j].x, next[j].y))
    {
      if j == |enemies| {
        assert Before(Coords(enemies[i].x, enemies[i].y), Coords(x, y));
      }
    }
    forall y', x' | TagAt(layout, x', y', ENEMY) && Before(Coords(x', y'), Coords(x + 1, y))
      ensures exists i :: 0 <= i < |next| && next[i].x == x' && next[i].y == y'
    {
      if x' == x && y' == y {
        assert next[|enemies|].x == x' && next[|enemies|].y == y';
      } else {
        var i :| 0 <= i < |enemies| && enemies[i].x == x' && enemies[i].y == y';
        assert next[i].x == x' && next[i].y == y';
      }
    }
  }

  lemma RosterStep(layout: seq<string>, enemies: seq<Enemy>, x: int, y: int)
    requires 0 <= y < |layout| && 0 <= x < |layout[y]|
    requires RosterBefore(layout, enemies, Coords(x, y))
    ensures RosterBefore(layout,
      if layout[y][x] == ENEMY then enemies + [Enemy(|enemies|, x, y)] else enemies, Coords(x + 1, y))
  {
    if layout[y][x] == ENEMY {
      RosterAdd(layout, enemies, x, y);
    } else {
      RosterSkip(layout, enemies, x, y);
    }
  }

  lemma RosterRow(layout: seq<string>, enemies: seq<Enemy>, y: int)
    requires 0 <= y < |layout|
    requires RosterBefore(layout, enemies, Coords(|layout[y]|, y))
    ensures RosterBefore(layout, enemies, Coords(0, y + 1))
  {
    forall y', x' | TagAt(layout, x', y', ENEMY) && Before(Coords(x', y'), Coords(0, y + 1))
      ensures Before(Coords(x', y'), Coords(|layout[y]|, y))
    {
    }
  }

  /** `row` is the grid row read from the layout line `line`. */
  predicate RowHidden(row: seq<char>, line: string) {
    |row| == |line| && forall x :: 0 <= x < |row| ==> row[x] == Hide(line[x])
  }

  lemma RowAppended(layout: seq<string>, grid: GameMap, row: seq<char>)
    requires |grid| < |layout| && RowHidden(row, layout[|grid|])
    requires forall r :: 0 <= r < |grid| ==> RowHidden(grid[r], layout[r])
    ensures forall r :: 0 <= r <= |grid| ==> RowHidden((grid + [row])[r], layout[r])
  {
  }

  /** Before the first cell nothing has been read. */
  lemma NothingBefore(layout: seq<string>)
    ensures LastBefore(layout, PLAYER, Coords(0, 0), Coords(0, 0))
    ensures LastBefore(layout, GOAL, Coords(0, 0), Coords(0, 0))
    ensures RosterBefore(layout, [], Coords(0, 0))
  {
  }

  /** Once every row is read, the reading is complete. */
  lemma AllRowsRead(layout: seq<string>, p: ParsedMap)
    requires |p.grid| == |layout| && forall r :: 0 <= r < |layout| ==> RowHidden(p.grid[r], layout[r])
    requires LastBefore(layout, PLAYER, p.player, Coords(0, |layout|))
    requires LastBefore(layout, GOAL, p.goal, Coords(0, |layout|))
    requires RosterBefore(layout, p.enemies, Coords(0, |layout|))
    requires p.bombs == [] && p.items == []
    ensures Parses(layout, p)
  {
    forall r, x | 0 <= r < |layout| && 0 <= x < |layout[r]| ensures p.grid[r][x] == Hide(layout[r][x]) {
      assert RowHidden(p.grid[r], layout[r]);
    }
  }

  /** Reading a layout row by row. */
  method ParseInitialMap(layout: seq<string>) returns (p: ParsedMap)
    ensures Parses(layout, p)
  {
    var grid: GameMap := [];
    var player := Coords(0, 0);
    var enemies: seq<Enemy> := [];
    var goal := Coords(0, 0);
    NothingBefore(layout);
    for y := 0 to |layout|
      invariant |grid| == y
      invariant forall r :: 0 <= r < y ==> RowHidden(grid[r], layout[r])
      invariant LastBefore(layout, PLAYER, player, Coords(0, y))
      invariant LastBefore(layout, GOAL, goal, Coords(0, y))
      invariant RosterBefore(layout, enemies, Coords(0, y))
    {
      var row;
      row, player, enemies, goal := ParseRow(layout, y, player, enemies, goal);
      RowAppended(layout, grid, row);
      grid := grid + [row];
    }
    p := ParsedMap(grid, player, enemies, [], [], goal);
    AllRowsRead(layout, p);
  }

  /**
   * Reading row `y` cell by cell: each cell hidden, the player's and the
   * goal's positions moved to the last such cell, each enemy cell appended
   * with the next id.
   */
  method ParseRow(layout: seq<string>, y: int, player: Coords, enemies: seq<Enemy>, goal: Coords)
    returns (row: seq<char>, player': Coords, enemies': seq<Enemy>, goal': Coords)
    requires 0 <= y < |layout|
    requires LastBefore(layout, PLAYER, player, Coords(0, y))
    requires LastBefore(layout, GOAL, goal, Coords(0, y))
    requires RosterBefore(layout, enemies, Coords(0, y))
    ensures RowHidden(row, layout[y])
    ensures LastBefore(layout, PLAYER, player', Coords(0, y + 1))
    ensures LastBefore(layout, GOAL, goal', Coords(0, y + 1))
    ensures RosterBefore(layout, enemies', Coords(0, y + 1))
  {
    var rowStr := layout[y];
    row, player', enemies', goal' := [], player, enemies, goal;
    for x := 0 to |rowStr|
      invariant |row| == x && forall k :: 0 <= k < x ==> row[k] == Hide(rowStr[k])
      invariant LastBefore(layout, PLAYER, player', Coords(x, y))
      invariant LastBefore(layout, GOAL, goal', Coords(x, y))
      invariant RosterBefore(layout, enemies', Coords(x, y))
    {
      var tag;
      tag, player', enemies', goal' := ParseCell(layout, x, y, player', enemies', goal');
      row := row + [tag];
    }
    LastRow(layout, PLAYER, player', y);
    LastRow(layout, GOAL, goal', y);
    RosterRow(layout, enemies', y);
  }

  /**
   * Reading the cell at column `x` of row `y`: a player cell moves the
   * player there, an enemy cell adds an enemy with the next id, a goal cell
   * moves the goal there; the grid gets the hidden cell.
   */
  method ParseCell(layout: seq<string>, x: int, y: int, player: Coords, enemies: seq<Enemy>, goal: Coords)
    returns (tag: char, player': Coords, enemies': seq<Enemy>, goal': Coords)
    requires 0 <= y < |layout| && 0 <= x < |layout[y]|
    requires LastBefore(layout, PLAYER, player, Coords(x, y))
    requires LastBefore(layout, GOAL, goal, Coords(x, y))
    requires RosterBefore(layout, enemies, Coords(x, y))
    ensures tag == Hide(layout[y][x])
    ensures LastBefore(layout, PLAYER, player', Coords(x + 1, y))
    ensures LastBefore(layout, GOAL, goal', Coords(x + 1, y))
    ensures RosterBefore(layout, enemies', Coords(x + 1, y))
  {
    var cell := layout[y][x];
    LastStep(layout, PLAYER, player, x, y);
    LastStep(layout, GOAL, goal, x, y);
    RosterStep(layout, enemies, x, y);
    player', enemies', goal' := player, enemies, goal;
    // The id counter always equals the number of enemies read so far.
    var enemyIdCounter := |enemies|;
    if cell == PLAYER {
      player' := Coords(x, y);
      tag := EMPTY;
    } else if cell == ENEMY {
      enemies' := enemies + [Enemy(enemyIdCounter, x, y)];
      tag := EMPTY;
    } else if cell == GOAL {
      goal' := Coords(x, y);
      tag := BREAKABLE_BLOCK;
    } else {
      tag := cell;
    }
  }

  lemma LastUnique(layout: seq<string>, tag: char, c1: Coords, c2: Coords, end: Coords)
    requires LastBefore(layout, tag, c1, end) && LastBefore(layout, tag, c2, end)
    ensures c1 == c2
  {
    if exists y, x {:trigger TagAt(layout, x, y, tag)} :: TagAt(layout, x, y, tag) && Before(Coords(x, y), end) {
      assert TagAt(layout, c1.x, c1.y, tag) && TagAt(layout, c2.x, c2.y, tag);
      assert !Before(c1, c2) && !Before(c2, c1);
    }
  }

  function Position(e: Enemy): Coords {
    Coords(e.x, e.y)
  }

  /** Two rosters of the same layout agree up to the shorter one's `k`-th entry. */
  lemma {:induction false} RosterPrefix(layout: seq<string>, a: seq<Enemy>, b: seq<Enemy>, end: Coords, k: nat)
    requires RosterBefore(layout, a, end) && RosterBefore(layout, b, end)
    requires k < |a| && k < |b|
    ensures forall j :: 0 <= j <= k ==> a[j] == b[j]
    decreases k
  {
    if k > 0 {
      RosterPrefix(layout, a, b, end, k - 1);
    }
    RosterPlace(layout, a, b, end, k);
    RosterPlace(layout, b, a, end, k);
  }

  /** The `k`-th entry of `a` is not before the `k`-th of `b` when both agree below `k`. */
  lemma RosterPlace(layout: seq<string>, a: seq<Enemy>, b: seq<Enemy>, end: Coords, k: nat)
    requires RosterBefore(layout, a, end) && RosterBefore(layout, b, end)
    requires k < |a| && k < |b|
    requires forall j :: 0 <= j < k ==> a[j] == b[j]
    ensures !Before(Position(a[k]), Position(b[k]))
  {
    assert TagAt(layout, a[k].x, a[k].y, ENEMY);
    var m :| 0 <= m < |b| && b[m].x == a[k].x && b[m].y == a[k].y;
    if m < k {
      assert false;
    } else if m > k {
      assert Before(Position(b[k]), Position(b[m]));
    }
  }

  /** A roster lists at least every entry of another roster of the same layout. */
  lemma RosterLength(layout: seq<string>, a: seq<Enemy>, b: seq<Enemy>, end: Coords)
    requires RosterBefore(layout, a, end) && RosterBefore(layout, b, end)
    requires |a| <= |b| && forall j :: 0 <= j < |a| ==> a[j] == b[j]
    ensures |a| == |b|
  {
    if |b| > 0 {
      var k := |b| - 1;
      RosterCovers(layout, a, end, b[k]);
      var m :| 0 <= m < |a| && Position(a[m]) == Position(b[k]);
      assert b[m] == a[m];
      assert m >= k;
    }
  }

  /** An enemy cell before `end` is listed in every roster up to `end`. */
  lemma RosterCovers(layout: seq<string>, a: seq<Enemy>, end: Coords, e: Enemy)
    requires RosterBefore(layout, a, end)
    requires TagAt(layout, e.x, e.y, ENEMY) && Before(Position(e), end)
    ensures exists m :: 0 <= m < |a| && Position(a[m]) == Position(e)
  {
  }

  /** The properties `Parses` lists determine the result of reading a layout completely. */
  lemma ParsesUnique(layout: seq<string>, p1: ParsedMap, p2: ParsedMap)
    requires Parses(layout, p1) && Parses(layout, p2)
    ensures p1 == p2
  {
    assert forall y :: 0 <= y < |layout| ==> p1.grid[y] == p2.grid[y];
    LastUnique(layout, PLAYER, p1.player, p2.player, Past(layout));
    LastUnique(layout, GOAL, p1.goal, p2.goal, Past(layout));
    RostersAgree(layout, p1.enemies, p2.enemies, Past(layout));
  }

  /** Two rosters of the same layout up to the same position are the same list. */
  lemma RostersAgree(layout: seq<string>, a: seq<Enemy>, b: seq<Enemy>, end: Coords)
    requires RosterBefore(layout, a, end) && RosterBefore(layout, b, end)
    ensures a == b
  {
    if |a| > 0 && |b| > 0 {
      var k := if |a| < |b| then |a| - 1 else |b| - 1;
      RosterPrefix(layout, a, b, end, k);
    }
    if |a| <= |b| {
      RosterLength(layout, a, b, end);
    } else {
      RosterLength(layout, b, a, end);
    }
  }

  /** The state of a fresh game: the parsed layout, stats of one, turn 0, the goal hidden, no explosions. */
  function NewGame(p: ParsedMap, status: GameStatus): GameState {
    GameState(p.grid, p.player, p.enemies, p.bombs, [], p.items, p.goal, false, PlayerStats(1, 1), status, 0)
  }

  /** Where the player, the goal and the enemies stand in the initial layout. */
  lemma InitialCells(y: int, x: int)
    requires 0 <= y < |INITIAL_MAP_LAYOUT| && 0 <= x < |INITIAL_MAP_LAYOUT[y]|
    ensures INITIAL_MAP_LAYOUT[y][x] == PLAYER <==> x == 2 && y == 1
    ensures INITIAL_MAP_LAYOUT[y][x] == GOAL <==> x == 8 && y == 7
    ensures INITIAL_MAP_LAYOUT[y][x] == ENEMY <==> (x == 6 && y == 1) || (x == 6 && y == 4) || (x == 4 && y == 7)
    ensures |INITIAL_MAP_LAYOUT[y]| == 11
    ensures (y == 0 || y == 8 || x == 0 || x == 10) ==> INITIAL_MAP_LAYOUT[y][x] == UNBREAKABLE_BLOCK
  {
  }

  /** The enemy roster of the initial layout. */
  lemma InitialRoster()
    ensures RosterBefore(INITIAL_MAP_LAYOUT, [Enemy(0, 6, 1), Enemy(1, 6, 4), Enemy(2, 4, 7)], Past(INITIAL_MAP_LAYOUT))
  {
    var layout := INITIAL_MAP_LAYOUT;
    var expected := [Enemy(0, 6, 1), Enemy(1, 6, 4), Enemy(2, 4, 7)];
    InitialCells(1, 6);
    InitialCells(4, 6);
    InitialCells(7, 4);
    forall y, x | TagAt(layout, x, y, ENEMY) && Before(Coords(x, y), Past(layout))
      ensures exists i :: 0 <= i < |expected| && expected[i].x == x && expected[i].y == y
    {
      InitialCells(y, x);
      if x == 6 && y == 1 {
        assert expected[0].x == x && expected[0].y == y;
      } else if x == 6 && y == 4 {
        assert expected[1].x == x && expected[1].y == y;
      } else {
        assert expected[2].x == x && expected[2].y == y;
      }
    }
  }

  lemma InitialPositions(p: ParsedMap)
    requires Parses(INITIAL_MAP_LAYOUT, p)
    ensures p.player == Coords(2, 1) && p.goal == Coords(8, 7)
  {
    var layout := INITIAL_MAP_LAYOUT;
    InitialCells(1, 2);
    InitialCells(7, 8);
    assert TagAt(layout, 2, 1, PLAYER) && TagAt(layout, 8, 7, GOAL);
    InitialCells(p.player.y, p.player.x);
    InitialCells(p.goal.y, p.goal.x);
  }

  /** One cell of the outer ring of the initial layout, read. */
  lemma InitialWall(p: ParsedMap, y: int, x: int)
    requires Parses(INITIAL_MAP_LAYOUT, p)
    requires 0 <= y < 9 && 0 <= x < 11 && (y == 0 || y == 8 || x == 0 || x == 10)
    ensures |p.grid[y]| == 11 && p.grid[y][x] == UNBREAKABLE_BLOCK
  {
    InitialCells(y, x);
    assert p.grid[y][x] == Hide(INITIAL_MAP_LAYOUT[y][x]);
  }

  lemma InitialGrid(p: ParsedMap)
    requires Parses(INITIAL_MAP_LAYOUT, p)
    ensures |p.grid| == 9 && forall y :: 0 <= y < 9 ==> |p.grid[y]| == 11
    ensures forall y, x :: 0 <= y < 9 && 0 <= x < 11 && (y == 0 || y == 8 || x == 0 || x == 10) ==>
      p.grid[y][x] == UNBREAKABLE_BLOCK
  {
    forall y, x | 0 <= y < 9 && 0 <= x < 11 && (y == 0 || y == 8 || x == 0 || x == 10)
      ensures p.grid[y][x] == UNBREAKABLE_BLOCK
    {
      InitialWall(p, y, x);
    }
    forall y | 0 <= y < 9 ensures |p.grid[y]| == 11 {
      InitialWall(p, y, 0);
    }
  }

  /**
   * Reading the initial layout puts the player at (2, 1), the goal at
   * (8, 7) and enemies 0, 1 and 2 at (6, 1), (6, 4) and (4, 7), on a grid of
   * nine rows of eleven cells whose outer ring is unbreakable.
   */
  lemma InitialLayout(p: ParsedMap)
    requires Parses(INITIAL_MAP_LAYOUT, p)
    ensures p.player == Coords(2, 1) && p.goal == Coords(8, 7)
    ensures p.enemies == [Enemy(0, 6, 1), Enemy(1, 6, 4), Enemy(2, 4, 7)]
    ensures |p.grid| == 9 && forall y :: 0 <= y < 9 ==> |p.grid[y]| == 11
    ensures forall y, x :: 0 <= y < 9 && 0 <= x < 11 && (y == 0 || y == 8 || x == 0 || x == 10) ==>
      p.grid[y][x] == UNBREAKABLE_BLOCK
  {
    InitialPositions(p);
    InitialGrid(p);
    InitialRoster();
    RostersAgree(INITIAL_MAP_LAYOUT, [Enemy(0, 6, 1), Enemy(1, 6, 4), Enemy(2, 4, 7)], p.enemies,
                 Past(INITIAL_MAP_LAYOUT));
  }
}

=== FILE: turn_facts.dfy ===
/**
 * What one turn does, stated against the phase specifications of `Turn`:
 * the player's action, the bomb fuses, the tiles an explosion marks, the map
 * changes, the enemies' fate, the pickups and the resulting game status.
 */
module TurnFacts {
  import opened Types
  import opened Grid
  import opened Seqs
  import opened Command
  import opened Blast
  import opened Engine

  /** Some bomb of `bombs` lies on `p`. */
  predicate HasBombAt(bombs: seq<Bomb>, p: Coords) {
    exists b :: b in bombs && b.x == p.x && b.y == p.y
  }

  /** The bomb-count check of a placement is the absence of a bomb on the tile. */
  lemma NoBombHere(bombs: seq<Bomb>, p: Coords)
    ensures |Filter(bombs, BombAt(p))| == 0 <==> !HasBombAt(bombs, p)
  {
    FilterMembership(bombs, BombAt(p));
    if |Filter(bombs, BombAt(p))| != 0 {
      assert Filter(bombs, BombAt(p))[0] in Filter(bombs, BombAt(p));
    }
  }

  // ----- 1. the player's action -----

  /**
   * The action phase changes at most the player's position and the bomb
   * list: the player stays, or on a move steps once onto an empty or goal
   * tile; a bomb with a full fuse is added exactly when a placement finds
   * the tile free of bombs and the count below the limit; a `move` without
   * a known direction changes nothing and says nothing; and the only
   * messages are the refused placement and the unknown command.
   */
  lemma ActionEffect(s: GameState, action: string)
    ensures var r := PlayerAction(s, action);
      r.state == s.(player := r.state.player, bombs := r.state.bombs) &&
      (r.state.player == s.player ||
       (Adjacent(s.player, r.state.player) && Cell(s.grid, r.state.player) in {Some(EMPTY), Some(GOAL)})) &&
      (r.state.bombs == s.bombs ||
       (r.state.bombs == s.bombs + [Bomb(s.player.x, s.player.y, BOMB_TIMER)] &&
        !HasBombAt(s.bombs, s.player) && |s.bombs| < s.playerStats.maxBombs)) &&
      (r.state.player != s.player ==> r.state.bombs == s.bombs) &&
      (ParseAction(action) == PlaceBomb && !HasBombAt(s.bombs, s.player) &&
       |s.bombs| < s.playerStats.maxBombs ==>
        r.state.bombs == s.bombs + [Bomb(s.player.x, s.player.y, BOMB_TIMER)]) &&
      (ParseAction(action) != PlaceBomb ==> r.state.bombs == s.bombs) &&
      (!ParseAction(action).Move? ==> r.state.player == s.player) &&
      (ParseAction(action) == Move(None) ==> r == TurnResult(s, [])) &&
      (r.events == [] || r.events == [CannotPlaceBomb] || r.events == [UnknownCommand(action)]) &&
      (r.events == [CannotPlaceBomb] <==>
        ParseAction(action) == PlaceBomb && !HasBombAt(s.bombs, s.player) &&
        |s.bombs| >= s.playerStats.maxBombs) &&
      (ParseAction(action) == Unknown <==> r == TurnResult(s, [UnknownCommand(action)]))
  {
    NoBombHere(s.bombs, s.player);
    match ParseAction(action)
    case Move(d) =>
      if d.Some? {
        NeighbourIsAdjacent(s.player, d.value);
      }
    case PlaceBomb =>
    case Wait =>
    case Unknown =>
  }

  /**
   * A command reading `move <d>` moves the player one step in direction `d`
   * exactly when that tile is empty or the goal, and otherwise changes
   * nothing; it never produces a message.
   */
  lemma MoveCommand(s: GameState, action: string, d: Dir)
    requires IsMoveCommand(ToLower(action), d)
    ensures var r := PlayerAction(s, action);
      var target := Tile(s.player, d, 1);
      r.events == [] &&
      (r.state.player == target <==> Cell(s.grid, target) in {Some(EMPTY), Some(GOAL)}) &&
      (r.state.player != target ==> r.state == s)
  {
    ParseMove(action, d);
    NeighbourIsAdjacent(s.player, d);
  }

  // ----- 2. bomb fuses -----

  lemma TickedMembers(bombs: seq<Bomb>)
    ensures |Ticked(bombs)| == |bombs|
    ensures forall b :: b in Ticked(bombs) <==> Bomb(b.x, b.y, b.timer + 1) in bombs
  {
    forall b ensures b in Ticked(bombs) <==> Bomb(b.x, b.y, b.timer + 1) in bombs {
      if Bomb(b.x, b.y, b.timer + 1) in bombs {
        var i :| 0 <= i < |bombs| && bombs[i] == Bomb(b.x, b.y, b.timer + 1);
        assert Ticked(bombs)[i] == b;
      }
    }
  }

  /** Ticking does not move bombs, so it keeps the number of bombs on every tile. */
  lemma {:induction false} TickedCount(bombs: seq<Bomb>, p: Coords)
    ensures |Filter(Ticked(bombs), BombAt(p))| == |Filter(bombs, BombAt(p))|
    decreases |bombs|
  {
    if bombs != [] {
      var init := bombs[..|bombs| - 1];
      TickedCount(init, p);
      assert Ticked(bombs)[..|bombs| - 1] == Ticked(init);
    }
  }

  /** Filtering first by another predicate can only lower the count of a filter. */
  lemma {:induction false} FilterFilterLength<T>(s: seq<T>, first: T -> bool, keep: T -> bool)
    ensures |Filter(Filter(s, first), keep)| <= |Filter(s, keep)|
    decreases |s|
  {
    if s != [] {
      var init := s[..|s| - 1];
      var last := s[|s| - 1];
      FilterFilterLength(init, first, keep);
      var tail := if first(last) then [last] else [];
      FilterAppend(Filter(init, first), tail, keep);
      if first(last) {
        assert tail[..0] == [];
      }
    }
  }

  /** The bombs after the timers have ticked and the spent ones are gone. */
  lemma TickedSurvivors(bombs: seq<Bomb>)
    ensures var kept := Filter(Ticked(bombs), Ticking);
      |kept| <= |bombs| &&
      (forall b :: b in kept <==> b.timer > 0 && Bomb(b.x, b.y, b.timer + 1) in bombs)
  {
    TickedMembers(bombs);
    FilterMembership(Ticked(bombs), Ticking);
  }

  /**
   * Over a turn every bomb's timer drops by one: the bombs left are exactly
   * the bombs of the action phase whose timer was above one, each one lower,
   * so there is at most one more bomb than before.
   */
  lemma TurnBombs(s: GameState, action: string, oracle: Oracle)
    requires s.gameStatus == Playing
    ensures var a := PlayerAction(s, action).state;
      var n := Turn(s, action, oracle).state;
      (forall b :: b in n.bombs <==> b.timer > 0 && Bomb(b.x, b.y, b.timer + 1) in a.bombs) &&
      (forall b :: b in a.bombs && b.timer > 1 ==> Bomb(b.x, b.y, b.timer - 1) in n.bombs) &&
      |n.bombs| <= |s.bombs| + 1
  {
    var a := PlayerAction(s, action).state;
    ActionEffect(s, action);
    TickedSurvivors(a.bombs);
    forall b | b in a.bombs && b.timer > 1 ensures Bomb(b.x, b.y, b.timer - 1) in Filter(Ticked(a.bombs), Ticking) {
      assert Bomb(b.x, b.y, b.timer - 1 + 1) == b;
    }
  }

  /**
   * A bomb list in which every timer lies in 1..`top`, no two bombs share a
   * tile, and there are at most `limit` bombs.
   */
  ghost predicate BombList(bombs: seq<Bomb>, top: int, limit: int) {
    (forall b :: b in bombs ==> 1 <= b.timer <= top) &&
    (forall p :: |Filter(bombs, BombAt(p))| <= 1) &&
    |bombs| <= limit
  }

  /**
   * The bombs between two turns: each fuse has one or two ticks left, no two
   * bombs share a tile, and there are no more bombs than the player may have.
   */
  ghost predicate BombsInOrder(s: GameState) {
    BombList(s.bombs, BOMB_TIMER - 1, s.playerStats.maxBombs)
  }

  lemma PlacementCount(bombs: seq<Bomb>, added: Bomb, p: Coords)
    ensures |Filter(bombs + [added], BombAt(p))| ==
      |Filter(bombs, BombAt(p))| + (if added.x == p.x && added.y == p.y then 1 else 0)
  {
    assert (bombs + [added])[..|bombs|] == bombs;
  }

  /** The action phase keeps the bombs apart and within the limit, with at most a full fuse. */
  lemma ActionKeepsBombList(s: GameState, action: string)
    requires BombsInOrder(s)
    ensures BombList(PlayerAction(s, action).state.bombs, BOMB_TIMER, s.playerStats.maxBombs)
  {
    var a := PlayerAction(s, action).state;
    ActionEffect(s, action);
    if a.bombs != s.bombs {
      var placed := Bomb(s.player.x, s.player.y, BOMB_TIMER);
      NoBombHere(s.bombs, s.player);
      forall p ensures |Filter(a.bombs, BombAt(p))| <= 1 {
        PlacementCount(s.bombs, placed, p);
      }
    }
  }

  /** Ticking and dropping the spent bombs lowers the top timer by one and keeps the rest. */
  lemma TickKeepsBombList(bombs: seq<Bomb>, top: int, limit: int)
    requires BombList(bombs, top, limit)
    ensures BombList(Filter(Ticked(bombs), Ticking), top - 1, limit)
  {
    var n := Filter(Ticked(bombs), Ticking);
    TickedSurvivors(bombs);
    forall p ensures |Filter(n, BombAt(p))| <= 1 {
      TickedCount(bombs, p);
      FilterFilterLength(Ticked(bombs), Ticking, BombAt(p));
    }
    forall b | b in n ensures 1 <= b.timer <= top - 1 {
      assert Bomb(b.x, b.y, b.timer + 1) in bombs;
    }
  }

  /** A turn keeps the bombs in order. */
  lemma TurnKeepsBombsInOrder(s: GameState, action: string, oracle: Oracle)
    requires BombsInOrder(s)
    ensures BombsInOrder(Turn(s, action, oracle).state)
  {
    if s.gameStatus == Playing {
      var a := PlayerAction(s, action).state;
      var n := Turn(s, action, oracle).state;
      ActionKeepsBombList(s, action);
      TickKeepsBombList(a.bombs, BOMB_TIMER, s.playerStats.maxBombs);
      TurnStages(s, action, oracle);
      assert n.bombs == Filter(Ticked(a.bombs), Ticking);
      assert n.playerStats.maxBombs >= s.playerStats.maxBombs;
    }
  }

  /**
   * A bomb placed in one turn goes off two turns later: after the placing
   * turn its fuse has two ticks left, after the next one tick, and the turn
   * after that marks its tile, as long as the game is still in play.
   */
  lemma BombFuse(s: GameState, o1: Oracle, o2: Oracle, o3: Oracle)
    requires s.gameStatus == Playing
    requires !HasBombAt(s.bombs, s.player) && |s.bombs| < s.playerStats.maxBombs
    ensures var s1 := Turn(s, "bomb", o1).state;
      var s2 := Turn(s1, "wait", o2).state;
      var s3 := Turn(s2, "wait", o3).state;
      Bomb(s.player.x, s.player.y, BOMB_TIMER - 1) in s1.bombs &&
      (s1.gameStatus == Playing ==>
        Bomb(s.player.x, s.player.y, BOMB_TIMER - 2) in s2.bombs &&
        (s2.gameStatus == Playing ==> s.player in s3.explosions))
  {
    PlacedFuse(s, o1);
    var s1 := Turn(s, "bomb", o1).state;
    if s1.gameStatus == Playing {
      FuseTick(s1, "wait", o2, Bomb(s.player.x, s.player.y, BOMB_TIMER - 1));
      var s2 := Turn(s1, "wait", o2).state;
      if s2.gameStatus == Playing {
        FuseOut(s2, "wait", o3, Bomb(s.player.x, s.player.y, BOMB_TIMER - 2));
      }
    }
  }

  /** `bomb` on a free tile below the limit leaves a bomb there with one tick gone. */
  lemma PlacedFuse(s: GameState, o: Oracle)
    requires s.gameStatus == Playing
    requires !HasBombAt(s.bombs, s.player) && |s.bombs| < s.playerStats.maxBombs
    ensures Bomb(s.player.x, s.player.y, BOMB_TIMER - 1) in Turn(s, "bomb", o).state.bombs
  {
    var p := s.player;
    ParseKeywords("bomb");
    assert ToLower("bomb") == "bomb";
    assert Leads("bomb", "bomb");
    NoBombHere(s.bombs, p);
    assert Bomb(p.x, p.y, BOMB_TIMER) in PlayerAction(s, "bomb").state.bombs;
    TurnBombs(s, "bomb", o);
  }

  /** Any turn in play takes one tick off a bomb with more than one left. */
  lemma FuseTick(s: GameState, action: string, o: Oracle, b: Bomb)
    requires s.gameStatus == Playing && b in s.bombs && b.timer > 1
    ensures Bomb(b.x, b.y, b.timer - 1) in Turn(s, action, o).state.bombs
  {
    ActionEffect(s, action);
    TurnBombs(s, action, o);
  }

  /** Any turn in play sets fire to the tile of a bomb with one tick left. */
  lemma FuseOut(s: GameState, action: string, o: Oracle, b: Bomb)
    requires s.gameStatus == Playing && b in s.bombs && b.timer == 1
    ensures Coords(b.x, b.y) in Turn(s, action, o).state.explosions
  {
    ActionEffect(s, action);
    TurnExplosions(s, action, o);
  }

  // ----- 3. explosions and the map -----

  /**
   * The detonation phase marks the tile of every bomb whose timer is zero,
   * and besides those only tiles within fire-power reach of such a bomb
   * that were not unbreakable blocks; with no such bomb it marks nothing.
   */
  lemma DetonationTiles(m: GameState, drop: nat -> Option<ItemType>)
    ensures var r := DetonationPhase(m, drop).state;
      (forall b :: b in m.bombs && b.timer == 0 ==> Coords(b.x, b.y) in r.explosions) &&
      (forall e :: e in r.explosions ==>
        (exists b :: b in m.bombs && b.timer == 0 && e == Coords(b.x, b.y)) ||
        (Cell(m.grid, e) != Some(UNBREAKABLE_BLOCK) &&
         exists b :: b in m.bombs && b.timer == 0 && Reached(e, Coords(b.x, b.y), m.playerStats.firePower))) &&
      ((forall b :: b in m.bombs ==> b.timer != 0) ==> r.explosions == [])
  {
    var spent := Filter(m.bombs, Spent);
    var start := Blast(m.grid, m.isGoalVisible, m.items, [], [], 0);
    var r := DetonateAll(start, m.goal, spent, m.playerStats.firePower, drop);
    assert Added(start, r) == r.explosions;
    DetonateAllTiles(start, m.goal, spent, m.playerStats.firePower, drop);
    FilterMembership(m.bombs, Spent);
    forall e | e in r.explosions && e in Origins(spent)
      ensures exists b :: b in m.bombs && b.timer == 0 && e == Coords(b.x, b.y)
    {
      var k :| 0 <= k < |spent| && Origins(spent)[k] == e;
      assert spent[k] in spent;
    }
  }

  /** Where the parts of a turn's result come from. */
  lemma TurnStages(s: GameState, action: string, oracle: Oracle)
    requires s.gameStatus == Playing
    ensures var a := PlayerAction(s, action).state;
      var m := a.(bombs := Ticked(a.bombs));
      var d := DetonationPhase(m, oracle.drop).state;
      var n := Turn(s, action, oracle).state;
      a.grid == s.grid && a.playerStats == s.playerStats && a.enemies == s.enemies && a.items == s.items &&
      n.explosions == d.explosions && n.grid == d.grid && n.bombs == d.bombs && n.player == a.player
  {
    ActionEffect(s, action);
  }

  /** After the timers tick, the bombs that go off are those whose timer was one. */
  lemma SpentAfterTick(a: seq<Bomb>)
    ensures forall b: Bomb :: b.timer == 0 ==> (b in Ticked(a) <==> Bomb(b.x, b.y, 1) in a)
  {
    TickedMembers(a);
  }

  /** `DetonationTiles` after the timers tick: the bombs that go off are those whose timer was one. */
  lemma TickedTiles(a: GameState, drop: nat -> Option<ItemType>)
    ensures var r := DetonationPhase(a.(bombs := Ticked(a.bombs)), drop).state;
      (forall b :: b in a.bombs && b.timer == 1 ==> Coords(b.x, b.y) in r.explosions) &&
      (forall e :: e in r.explosions ==>
        (exists b :: b in a.bombs && b.timer == 1 && e == Coords(b.x, b.y)) ||
        (Cell(a.grid, e) != Some(UNBREAKABLE_BLOCK) &&
         exists b :: b in a.bombs && b.timer == 1 && Reached(e, Coords(b.x, b.y), a.playerStats.firePower))) &&
      ((forall b :: b in a.bombs ==> b.timer != 1) ==> r.explosions == [])
  {
    var m := a.(bombs := Ticked(a.bombs));
    var r := DetonationPhase(m, drop).state;
    DetonationTiles(m, drop);
    SpentAfterTick(a.bombs);
    forall b | b in a.bombs && b.timer == 1 ensures Coords(b.x, b.y) in r.explosions {
      assert Bomb(b.x, b.y, 0) in m.bombs;
    }
    forall e | e in r.explosions
      ensures (exists b :: b in a.bombs && b.timer == 1 && e == Coords(b.x, b.y)) ||
        (Cell(a.grid, e) != Some(UNBREAKABLE_BLOCK) &&
         exists b :: b in a.bombs && b.timer == 1 && Reached(e, Coords(b.x, b.y), a.playerStats.firePower))
    {
      if exists b :: b in m.bombs && b.timer == 0 && e == Coords(b.x, b.y) {
        var b :| b in m.bombs && b.timer == 0 && e == Coords(b.x, b.y);
        assert Bomb(b.x, b.y, 1) in a.bombs;
      } else {
        var b :| b in m.bombs && b.timer == 0 && Reached(e, Coords(b.x, b.y), a.playerStats.firePower);
        assert Bomb(b.x, b.y, 1) in a.bombs;
      }
    }
  }

  /**
   * The explosion list after a turn holds only this turn's blasts: the tile
   * of every bomb whose fuse ran out, and besides those only tiles within
   * fire-power reach of such a bomb that were not unbreakable blocks. When
   * no fuse runs out the list is empty.
   */
  lemma TurnExplosions(s: GameState, action: string, oracle: Oracle)
    requires s.gameStatus == Playing
    ensures var a := PlayerAction(s, action).state;
      var n := Turn(s, action, oracle).state;
      (forall b :: b in a.bombs && b.timer == 1 ==> Coords(b.x, b.y) in n.explosions) &&
      (forall e :: e in n.explosions ==>
        (exists b :: b in a.bombs && b.timer == 1 && e == Coords(b.x, b.y)) ||
        (Cell(s.grid, e) != Some(UNBREAKABLE_BLOCK) &&
         exists b :: b in a.bombs && b.timer == 1 && Reached(e, Coords(b.x, b.y), s.playerStats.firePower))) &&
      ((forall b :: b in a.bombs ==> b.timer != 1) ==> n.explosions == [])
  {
    TurnStages(s, action, oracle);
    TickedTiles(PlayerAction(s, action).state, oracle.drop);
  }

  /** Where the map, the goal flag and the items after a turn of play come from. */
  lemma TurnBlastResult(s: GameState, action: string, oracle: Oracle)
    requires s.gameStatus == Playing
    ensures var a := PlayerAction(s, action).state;
      var r := DetonateAll(Blast(s.grid, s.isGoalVisible, s.items, [], [], 0), s.goal,
                           Filter(Ticked(a.bombs), Spent), s.playerStats.firePower, oracle.drop);
      var n := Turn(s, action, oracle).state;
      n.grid == r.grid && n.isGoalVisible == r.isGoalVisible && n.goal == s.goal &&
      n.explosions == r.explosions &&
      n.items == Filter(r.items, ItemNotAt(n.player)) && n.turn == s.turn + 1 &&
      n.playerStats == Boosted(s.playerStats, r.items, n.player)
  {
    ActionEffect(s, action);
  }

  /**
   * Over a turn the map only loses breakable blocks (each becoming empty, or
   * the goal on the goal tile), and only on this turn's explosion tiles; the
   * goal becomes visible exactly when it already was or its block was
   * destroyed; every item is an old one or lies on a destroyed block; every
   * old item off the player's tile is kept, and none is left on it.
   * Outside of play the turn changes nothing.
   */
  lemma TurnMap(s: GameState, action: string, oracle: Oracle)
    ensures s.gameStatus != Playing ==> Turn(s, action, oracle) == TurnResult(s, [])
    ensures var n := Turn(s, action, oracle).state;
      OnlyBlocksBroken(s.grid, n.grid, s.goal) && n.goal == s.goal &&
      (forall c :: Cell(s.grid, c) != Cell(n.grid, c) ==> c in n.explosions) &&
      (n.isGoalVisible <==>
        s.isGoalVisible ||
        (Cell(s.grid, s.goal) == Some(BREAKABLE_BLOCK) && Cell(n.grid, s.goal) == Some(GOAL))) &&
      (forall it :: it in n.items ==> it in s.items || Broken(s.grid, n.grid, Coords(it.x, it.y))) &&
      (s.gameStatus == Playing ==>
        n.turn == s.turn + 1 &&
        (forall it :: it in n.items ==> !(it.x == n.player.x && it.y == n.player.y)) &&
        (forall it :: it in s.items && !(it.x == n.player.x && it.y == n.player.y) ==> it in n.items))
  {
    if s.gameStatus != Playing {
      OnlyBlocksBrokenReflexive(s.grid, s.goal);
    } else {
      TurnGrid(s, action, oracle);
      TurnItems(s, action, oracle);
    }
  }

  /** The map and the goal flag after a turn of play, as the detonation pass leaves them. */
  lemma TurnGrid(s: GameState, action: string, oracle: Oracle)
    requires s.gameStatus == Playing
    ensures var n := Turn(s, action, oracle).state;
      OnlyBlocksBroken(s.grid, n.grid, s.goal) && n.goal == s.goal &&
      (forall c :: Cell(s.grid, c) != Cell(n.grid, c) ==> c in n.explosions) &&
      (n.isGoalVisible <==>
        s.isGoalVisible ||
        (Cell(s.grid, s.goal) == Some(BREAKABLE_BLOCK) && Cell(n.grid, s.goal) == Some(GOAL))) &&
      n.turn == s.turn + 1
  {
    var a := PlayerAction(s, action).state;
    var start := Blast(s.grid, s.isGoalVisible, s.items, [], [], 0);
    TurnBlastResult(s, action, oracle);
    DetonateAllAftermath(start, s.goal, Filter(Ticked(a.bombs), Spent), s.playerStats.firePower, oracle.drop);
    FreshPass(start, DetonateAll(start, s.goal, Filter(Ticked(a.bombs), Spent), s.playerStats.firePower, oracle.drop),
              s.goal);
  }

  /**
   * A `wait` in which no fuse runs out changes neither the map, nor the goal
   * flag, nor where the player stands, and leaves no explosion tiles; when no
   * item lies on the player's tile the items and the stats stay as they were.
   */
  lemma QuietWait(s: GameState, oracle: Oracle)
    requires s.gameStatus == Playing
    requires forall b :: b in s.bombs ==> b.timer != 1
    ensures var n := Turn(s, "wait", oracle).state;
      n.grid == s.grid && n.isGoalVisible == s.isGoalVisible && n.player == s.player &&
      n.explosions == [] && n.turn == s.turn + 1 &&
      ((forall it :: it in s.items ==> !(it.x == s.player.x && it.y == s.player.y)) ==>
        n.items == s.items && n.playerStats == s.playerStats)
  {
    ParseKeywords("wait");
    assert ToLower("wait") == "wait";
    assert Leads("wait", "wait");
    assert PlayerAction(s, "wait") == TurnResult(s, []);
    var ticked := Ticked(s.bombs);
    forall i | 0 <= i < |ticked|
      ensures !Spent(ticked[i])
    {
      assert s.bombs[i] in s.bombs;
    }
    FilterAllOrNothing(ticked, Spent);
    TurnBlastResult(s, "wait", oracle);
    TurnStages(s, "wait", oracle);
    if forall it :: it in s.items ==> !(it.x == s.player.x && it.y == s.player.y) {
      NothingToPickUp(s.items, s.player, s.playerStats);
    }
  }

  /** With no item on tile `p`, picking up keeps every item and the stats. */
  lemma NothingToPickUp(items: seq<Item>, p: Coords, stats: PlayerStats)
    requires forall it :: it in items ==> !(it.x == p.x && it.y == p.y)
    ensures Filter(items, ItemNotAt(p)) == items && Boosted(stats, items, p) == stats
  {
    forall i | 0 <= i < |items|
      ensures ItemNotAt(p)(items[i]) && !KindAt(p, FireUp)(items[i]) && !KindAt(p, BombUp)(items[i])
    {
      assert items[i] in items;
    }
    FilterAllOrNothing(items, ItemNotAt(p));
    FilterAllOrNothing(items, KindAt(p, FireUp));
    FilterAllOrNothing(items, KindAt(p, BombUp));
  }

  /** A detonation pass started with no explosion tiles changes only cells it marks. */
  lemma FreshPass(start: Blast, r: Blast, goal: Coords)
    requires start.explosions == [] && Aftermath(start, r, goal)
    ensures forall c :: Cell(start.grid, c) != Cell(r.grid, c) ==> c in r.explosions
  {
    assert Added(start, r) == r.explosions;
  }

  /** The items after a turn of play: the detonation pass's, less those on the player's tile. */
  lemma TurnItems(s: GameState, action: string, oracle: Oracle)
    requires s.gameStatus == Playing
    ensures var n := Turn(s, action, oracle).state;
      (forall it :: it in n.items ==> it in s.items || Broken(s.grid, n.grid, Coords(it.x, it.y))) &&
      (forall it :: it in n.items ==> !(it.x == n.player.x && it.y == n.player.y)) &&
      (forall it :: it in s.items && !(it.x == n.player.x && it.y == n.player.y) ==> it in n.items)
  {
    var n := Turn(s, action, oracle).state;
    var a := PlayerAction(s, action).state;
    var start := Blast(s.grid, s.isGoalVisible, s.items, [], [], 0);
    var r := DetonateAll(start, s.goal, Filter(Ticked(a.bombs), Spent), s.playerStats.firePower, oracle.drop);
    TurnBlastResult(s, action, oracle);
    DetonateAllAftermath(start, s.goal, Filter(Ticked(a.bombs), Spent), s.playerStats.firePower, oracle.drop);
    PassItems(start, r, s.goal);
    FilterMembership(r.items, ItemNotAt(n.player));
  }

  /** A detonation pass keeps every item and adds new ones only on destroyed blocks. */
  lemma PassItems(start: Blast, r: Blast, goal: Coords)
    requires Aftermath(start, r, goal)
    ensures forall it :: it in r.items ==> it in start.items || Broken(start.grid, r.grid, Coords(it.x, it.y))
    ensures forall it :: it in start.items ==> it in r.items
  {
    forall it | it in r.items ensures it in start.items || Broken(start.grid, r.grid, Coords(it.x, it.y)) {
      var k :| 0 <= k < |r.items| && r.items[k] == it;
      if k < |start.items| {
        assert r.items[..|start.items|][k] == it;
      }
    }
    forall it | it in start.items ensures it in r.items {
      var k :| 0 <= k < |start.items| && start.items[k] == it;
      assert r.items[..|start.items|][k] == it;
    }
  }

  // ----- 4. enemies -----

  /**
   * An enemy's step keeps its id, and either leaves it where it was (exactly
   * when no neighbouring tile is empty) or moves it one step onto an empty
   * tile.
   */
  lemma StepEnemyMoves(grid: GameMap, e: Enemy, pick: nat)
    ensures var r := StepEnemy(grid, e, pick);
      r.id == e.id &&
      (r == e <==> OpenMoves(grid, e) == []) &&
      (r != e ==> Adjacent(Coords(e.x, e.y), Coords(r.x, r.y)) && Cell(grid, Coords(r.x, r.y)) == Some(EMPTY))
  {
    var moves := OpenMoves(grid, e);
    if |moves| > 0 {
      var d := moves[pick % |moves|];
      FilterMembership(SCAN_ORDER, OpenFor(grid, e));
      assert d in moves;
      NeighbourIsAdjacent(Coords(e.x, e.y), d);
    }
  }

  /** Every direction whose neighbouring tile is empty is among the open moves. */
  lemma OpenMoveListed(grid: GameMap, e: Enemy, d: Dir)
    requires Cell(grid, Tile(Coords(e.x, e.y), d, 1)) == Some(EMPTY)
    ensures d in OpenMoves(grid, e)
  {
    FilterMembership(SCAN_ORDER, OpenFor(grid, e));
    assert d in SCAN_ORDER by {
      assert SCAN_ORDER == [Down, Up, Right, Left];
    }
  }

  lemma ModBelow(j: nat, n: nat)
    requires j < n
    ensures j % n == j
  {
  }

  /** Every empty neighbouring tile is a step the oracle can choose. */
  lemma EveryOpenStepPossible(grid: GameMap, e: Enemy, d: Dir)
    requires Cell(grid, Tile(Coords(e.x, e.y), d, 1)) == Some(EMPTY)
    ensures var t := Tile(Coords(e.x, e.y), d, 1);
      exists pick: nat :: StepEnemy(grid, e, pick) == e.(x := t.x, y := t.y)
  {
    var moves := OpenMoves(grid, e);
    OpenMoveListed(grid, e, d);
    var j :| 0 <= j < |moves| && moves[j] == d;
    ModBelow(j, |moves|);
    var t := Tile(Coords(e.x, e.y), d, 1);
    assert StepEnemy(grid, e, j) == e.(x := t.x, y := t.y);
  }

  /** The number of `EnemyDefeated` messages in `Repeat(EnemyDefeated, n)` is `n`. */
  lemma {:induction false} RepeatCount(x: Event, n: nat)
    ensures multiset(Repeat(x, n))[x] == n
  {
    if n > 0 {
      RepeatCount(x, n - 1);
      assert Repeat(x, n) == Repeat(x, n - 1) + [x];
    }
  }

  /**
   * The explosion sweep keeps exactly the enemies not on any explosion tile,
   * with one defeat message per enemy removed, and loses the game exactly
   * when the player is on an explosion tile.
   */
  lemma {:induction false} SweepOutcome(explosions: seq<Coords>, player: Coords, enemies: seq<Enemy>,
                                        status: GameStatus)
    ensures var r := SweepExplosions(explosions, player, enemies, status);
      |r.enemies| <= |enemies| &&
      (forall e :: e in r.enemies <==> e in enemies && Coords(e.x, e.y) !in explosions) &&
      r.status == (if player in explosions then Lose else status) &&
      multiset(r.events)[EnemyDefeated] == |enemies| - |r.enemies|
    decreases |explosions|
  {
    if explosions != [] {
      var exp := explosions[0];
      var one := HitTile(exp, player, enemies, status);
      var rest := SweepExplosions(explosions[1..], player, one.enemies, one.status);
      SweepOutcome(explosions[1..], player, one.enemies, one.status);
      FilterMembership(enemies, EnemyNotAt(exp));
      RepeatCount(EnemyDefeated, |enemies| - |one.enemies|);
      assert multiset(one.events)[EnemyDefeated] == |enemies| - |one.enemies|;
      assert explosions == [exp] + explosions[1..];
      assert player in explosions <==> player == exp || player in explosions[1..];
    }
  }

  /** `e` is an enemy of `enemies` (same id) that stayed put or stepped once onto an empty tile of `grid`. */
  ghost predicate Descends(e: Enemy, enemies: seq<Enemy>, grid: GameMap) {
    exists i :: 0 <= i < |enemies| && e.id == enemies[i].id &&
      (e == enemies[i] ||
       (Adjacent(Coords(enemies[i].x, enemies[i].y), Coords(e.x, e.y)) && Cell(grid, Coords(e.x, e.y)) == Some(EMPTY)))
  }

  /**
   * Over a turn the enemy count never grows, no enemy is left on an
   * explosion tile, and every enemy left is an enemy of before (same id)
   * that stayed or stepped once onto an empty tile of the new map.
   */
  lemma TurnEnemies(s: GameState, action: string, oracle: Oracle)
    requires s.gameStatus == Playing
    ensures var n := Turn(s, action, oracle).state;
      |n.enemies| <= |s.enemies| &&
      (forall e :: e in n.enemies ==> Coords(e.x, e.y) !in n.explosions) &&
      (forall e :: e in n.enemies ==> Descends(e, s.enemies, n.grid))
  {
    var n := Turn(s, action, oracle).state;
    ActionEffect(s, action);
    var moved := MovedEnemies(n.grid, s.enemies, oracle.step);
    assert n.enemies == SweepExplosions(n.explosions, n.player, moved, Playing).enemies;
    SweepOutcome(n.explosions, n.player, moved, Playing);
    forall e | e in n.enemies ensures Descends(e, s.enemies, n.grid) {
      var i :| 0 <= i < |moved| && moved[i] == e;
      StepEnemyMoves(n.grid, s.enemies[i], oracle.step(i));
    }
  }

  // ----- 5. pickups and the game status -----

  /** Every item on `p` is of exactly one kind, and every item is on `p` or not. */
  lemma {:induction false} PickupCount(items: seq<Item>, p: Coords)
    ensures |Filter(items, KindAt(p, FireUp))| + |Filter(items, KindAt(p, BombUp))| +
            |Filter(items, ItemNotAt(p))| == |items|
    decreases |items|
  {
    if items != [] {
      PickupCount(items[..|items| - 1], p);
    }
  }

  /**
   * Picking up removes exactly the items on the player's tile, and each of
   * them raises exactly one of fire power and bomb limit by one.
   */
  lemma PickUpEffect(items: seq<Item>, p: Coords, stats: PlayerStats)
    ensures var kept := Filter(items, ItemNotAt(p));
      var boosted := Boosted(stats, items, p);
      stats.firePower <= boosted.firePower && stats.maxBombs <= boosted.maxBombs &&
      (boosted.firePower - stats.firePower) + (boosted.maxBombs - stats.maxBombs) == |items| - |kept| &&
      (forall it :: it in kept <==> it in items && !(it.x == p.x && it.y == p.y))
  {
    PickupCount(items, p);
    FilterMembership(items, ItemNotAt(p));
  }

  /**
   * The status after a turn of play: won when the goal is visible and the
   * player stands on it, whatever else happened; otherwise lost when the
   * player stands on an explosion tile or shares a tile with an enemy left
   * standing; otherwise still playing.
   */
  lemma TurnStatus(s: GameState, action: string, oracle: Oracle)
    requires s.gameStatus == Playing
    ensures var n := Turn(s, action, oracle).state;
      var won := n.isGoalVisible && n.player == n.goal;
      var lost := n.player in n.explosions ||
        exists e :: e in n.enemies && e.x == n.player.x && e.y == n.player.y;
      n.gameStatus == (if won then Win else if lost then Lose else Playing)
  {
    var n := Turn(s, action, oracle).state;
    ActionEffect(s, action);
    var moved := MovedEnemies(n.grid, s.enemies, oracle.step);
    var sweep := SweepExplosions(n.explosions, n.player, moved, Playing);
    SweepOutcome(n.explosions, n.player, moved, Playing);
    assert n.enemies == sweep.enemies;
    NoEnemyHere(sweep.enemies, n.player);
  }

  lemma NoEnemyHere(enemies: seq<Enemy>, p: Coords)
    ensures |Filter(enemies, EnemyAt(p))| > 0 <==> exists e :: e in enemies && e.x == p.x && e.y == p.y
  {
    FilterMembership(enemies, EnemyAt(p));
    if |Filter(enemies, EnemyAt(p))| > 0 {
      assert Filter(enemies, EnemyAt(p))[0] in Filter(enemies, EnemyAt(p));
    }
  }

  // ----- the player stays inside the walls -----

  /** A rectangular grid whose outer ring of cells is unbreakable. */
  ghost predicate Walled(grid: GameMap) {
    |grid| > 0 &&
    (forall y :: 0 <= y < |grid| ==> |grid[y]| == |grid[0]|) &&
    (forall y, x :: InGrid(grid, x, y) && (y == 0 || y == |grid| - 1 || x == 0 || x == |grid[y]| - 1) ==>
      grid[y][x] == UNBREAKABLE_BLOCK)
  }

  /** The grid is walled and the player stands on it, off the unbreakable blocks. */
  ghost predicate PlayerInside(s: GameState) {
    Walled(s.grid) && InGrid(s.grid, s.player.x, s.player.y) && Cell(s.grid, s.player) != Some(UNBREAKABLE_BLOCK)
  }

  /** Inside the walls every neighbouring tile is on the grid, so a move never reads past its edge. */
  lemma NeighbourOnGrid(grid: GameMap, c: Coords, d: Dir)
    requires Walled(grid) && InGrid(grid, c.x, c.y) && Cell(grid, c) != Some(UNBREAKABLE_BLOCK)
    ensures InGrid(grid, Tile(c, d, 1).x, Tile(c, d, 1).y)
  {
    assert |grid[c.y]| == |grid[0]|;
    assert c.y != 0 && c.y != |grid| - 1 && c.x != 0 && c.x != |grid[c.y]| - 1;
  }

  lemma WalledKept(m0: GameMap, m1: GameMap, goal: Coords)
    requires Walled(m0) && OnlyBlocksBroken(m0, m1, goal)
    ensures Walled(m1)
  {
    forall y, x | InGrid(m1, x, y) && (y == 0 || y == |m1| - 1 || x == 0 || x == |m1[y]| - 1)
      ensures m1[y][x] == UNBREAKABLE_BLOCK
    {
      assert InGrid(m0, x, y) && m0[y][x] == UNBREAKABLE_BLOCK;
    }
  }

  /** A turn keeps the player inside the walls. */
  lemma TurnKeepsPlayerInside(s: GameState, action: string, oracle: Oracle)
    requires PlayerInside(s)
    ensures PlayerInside(Turn(s, action, oracle).state)
  {
    var n := Turn(s, action, oracle).state;
    TurnMap(s, action, oracle);
    WalledKept(s.grid, n.grid, s.goal);
    if s.gameStatus == Playing {
      ActionEffect(s, action);
      TurnStages(s, action, oracle);
      UnbreakableStays(s.grid, n.grid, s.goal, n.player);
      assert InGrid(n.grid, n.player.x, n.player.y);
    }
  }
}

=== FILE: types.dfy ===
/**
 * The game's data model: cell tags, entities, the whole-game snapshot and
 * the fixed configuration constants of the game.
 */
module Types {

  datatype Option<T> = None | Some(value: T)

  // Cell tags of the grid and of the initial layout (one character each).
  const EMPTY: char := ' '
  const BREAKABLE_BLOCK: char := 'B'
  const UNBREAKABLE_BLOCK: char := 'X'
  const ENEMY: char := 'E'
  const PLAYER: char := 'P'
  const GOAL: char := 'G'

  /** Number of turns a freshly placed bomb waits before it goes off. */
  const BOMB_TIMER: int := 3

  /** The 11-by-9 starting layout; the outermost ring is unbreakable. */
  const INITIAL_MAP_LAYOUT: seq<string> := [
    "XXXXXXXXXXX",
    "X P B E B X",
    "X X B X B X",
    "X B B B B X",
    "X B X E X X",
    "X B B B B X",
    "X X B X B X",
    "X B E B G X",
    "XXXXXXXXXXX"
  ]

  datatype ItemType = FireUp | BombUp

  datatype GameStatus = StartScreen | Playing | Win | Lose

  /** A tile position: `x` is the column, `y` the row. */
  datatype Coords = Coords(x: int, y: int)

  datatype Enemy = Enemy(id: int, x: int, y: int)

  datatype Bomb = Bomb(x: int, y: int, timer: int)

  datatype Item = Item(x: int, y: int, kind: ItemType)

  datatype PlayerStats = PlayerStats(firePower: int, maxBombs: int)

  /** The grid, indexed `grid[y][x]`. Rows need not be of equal length. */
  type GameMap = seq<seq<char>>

  /** The complete snapshot of a game between two turns. */
  datatype GameState = GameState(
    grid: GameMap,
    player: Coords,
    enemies: seq<Enemy>,
    bombs: seq<Bomb>,
    explosions: seq<Coords>,
    items: seq<Item>,
    goal: Coords,
    isGoalVisible: bool,
    playerStats: PlayerStats,
    gameStatus: GameStatus,
    turn: int
  )

  /** One entry of the turn's message log, in the order the turn produces them. */
  datatype Event =
    | CannotPlaceBomb
    | UnknownCommand(action: string)
    | ExitRevealed
    | ItemAppeared(kind: ItemType)
    | CaughtInExplosion
    | EnemyDefeated
    | RanIntoEnemy
    | PoweredUp(kind: ItemType)
    | Escaped
    | GameStarted
    | GameRestarted

  /**
   * The two random decisions of a turn, supplied from outside: `drop(k)` is
   * the outcome of the item roll for the k-th block destroyed in the turn
   * (None: no item), `step(i)` chooses among the open neighbours of the i-th
   * enemy (taken modulo their number).
   */
  datatype Oracle = Oracle(drop: nat -> Option<ItemType>, step: nat -> nat)
}
